=== FILE: README.md ===
# softlight_a2 core, modelled in Dafny

softlight_a2 records UI workflows in web applications. It takes an app and a
natural-language task. It plans a list of steps, either by asking a language
model or from keywords. It performs each step in a Playwright page and
detects whether the page state changed. It captures screenshots of the
states that matter and records one entry per step.

This project models the core of that loop as pure functions over an abstract
page, and proves properties of it:

- `Selectors` — the resolver that turns a step's selector dictionary into one
  kind of locator, under a fixed precedence (`_resolve`).
- `Browser` — the page as an oracle. Every Playwright operation is a `Call`.
  The page answers reads (URL, markup, match counts, modal and overlay probes,
  clock) and decides whether each call returns or raises. Both depend on the
  calls issued before. An `Exec` records the calls one `try` block issued and
  the exception that ended it.
- `Executor` — `ActionExecutor.perform`: goto, click (with its single
  unverified retry), hover, type, key presses and chords, wait_for and scroll.
  Every exception is caught.
- `Detector` — `StateDetector.detect`: settle waits, probes, the markup
  signature, and the one-slot signature memory.
- `Screenshots` — `ScreenshotManager.capture`: the duplicate-state guard, the
  counter, and the directory and file naming.
- `Planner` — `AIClient`: provider selection, fence unwrapping of the model's
  reply, the plan validity check, and the keyword-driven heuristic plan.
- `TaskPlanner` — `TaskPlanner.plan`: normalisation of the planner's result.
- `Runner` — `run_once`: the loop over `steps[:max_steps]` with its capture
  rule and its success and error records.
- `Text` and `Basics` — the Python string and integer operations the code
  relies on: `in`, `split`, `strip`, `lower`, slicing, `int()`, `str()` and
  `{:02d}`.

Several parts of the system are parameters of the model:

- Some things come from outside the core. These are the model's reply, the
  JSON decoder, the sha256 digest behind the signature, the slug function
  for task names, and the clock.
- Which API keys are set decides which client `AIClient` tries: the
  Anthropic one when its key is set, otherwise the OpenAI one. Whether that
  client's constructor raised is a separate boolean parameter for each
  provider (`Planner.SelectProvider`).

## Model

| member | source | states |
|---|---|---|
| Selectors.Resolve | project/src/agent/action_executor.py:12-14 | a missing or empty selector resolves to the page body |
| Selectors.ResolveIsFirstApplicable | project/src/agent/action_executor.py:12-34 | the resolver is exactly "the first applicable clause in precedence order (css, role+name_regex, role+name, text, placeholder, label, xpath), else body" |
| Selectors.ResolvePrecedence | project/src/agent/action_executor.py:15-33 | each locator kind is chosen if and only if its clause applies and no earlier clause does: the `role` clauses only test that "role" and "name" are present, while css, name_regex, text, placeholder, label and xpath must hold a non-empty value; a css or text locator carries that key's value |
| Selectors.ResolveBody | project/src/agent/action_executor.py:13-34 | the result is body if and only if the selector is missing or empty, or css starts with "http", or no clause applies |
| Browser.IssueAll | project/src/agent/action_executor.py:100-117 | unguarded calls in sequence: nothing is raised if and only if every call returns in turn, and then all are issued; otherwise every call before the last issued one returned, the last issued one raised, its exception ends the block, and nothing after it is issued |
| Executor.GotoUrl | project/src/agent/action_executor.py:45-46 | goto has a URL if and only if the selector is non-empty with a truthy css value, and that value is the URL |
| Executor.DoGoto | project/src/agent/action_executor.py:44-47 | goto navigates once, with a 30 s timeout, to a truthy css value, and raises exactly when that navigation raises, with its message; without a URL it is a no-op |
| Executor.DoClick | project/src/agent/action_executor.py:48-84 | a click issues a prefix of scroll, click, idle-wait, scroll, click; a first click that raises ends the block with its exception; the scrolls and the idle wait are guarded, the retry click is not and its exception ends the block; the second scroll and click happen if and only if the first click returned and neither the URL nor a readable markup length changed; a failing count raises with nothing issued, and a target with no match issues nothing |
| Executor.ClickPlanPrefix | project/src/agent/action_executor.py:59-81 | along the click sequence there are at most two clicks, and the timeouts add up to at most 24 s |
| Executor.DoHover | project/src/agent/action_executor.py:85-90 | a hover counts the target's matches first: a failing count raises with nothing issued, no match issues nothing and logs not found, and otherwise exactly one 5 s hover is issued, which raises exactly when the page says so |
| Executor.DoType | project/src/agent/action_executor.py:91-104 | without a selector (missing or `{}`) the text is typed into the focused element with a 50 ms delay, raising exactly when that call does; with one, a failing count raises with nothing issued, no match issues nothing, and a match clears the field and then types: nothing is raised if and only if both calls return, and otherwise the first that raised ends the block |
| Executor.DoPress | project/src/agent/action_executor.py:105-119 | a press issues its key events in order: nothing is raised if and only if every event returns, and otherwise the first event that raised is the last one issued and its exception ends the block |
| Executor.DoWaitFor | project/src/agent/action_executor.py:120-123 | wait_for issues one 10 s wait for the resolved target in the requested state, and raises exactly when that wait does |
| Executor.DoScroll | project/src/agent/action_executor.py:124-126 | scroll wheels vertically by the parsed amount and raises exactly when the wheel does; an input `int()` rejects raises before anything is issued |
| Executor.ScrollDelta | project/src/agent/action_executor.py:125 | a missing input scrolls 800; an input is accepted if and only if it is a numeral once stripped, and then scrolls by that numeral's value |
| Executor.ScrollDeltaOfInt | project/src/agent/action_executor.py:125 | the decimal text of any integer scrolls by that integer |
| Executor.Perform | project/src/agent/action_executor.py:36-131 | perform issues exactly the action's calls followed by the `wait_ms` sleep when the action raised nothing, and otherwise exactly the action's calls with the exception caught; the sleep is then the only sleep, and when nothing was caught it was issued |
| Executor.PerformClick | project/src/agent/action_executor.py:48-129 | a click step clicks at most twice, twice exactly when the retry condition holds, and the retry is reported without checking its effect; the whole step stays within 24 s of timeouts plus `wait_ms` |
| Executor.PerformCatchesAll | project/src/agent/action_executor.py:43-131 | `perform` never raises; after an exception the trailing sleep is skipped, and otherwise it is the last call and the only sleep |
| Executor.Act | project/src/agent/action_executor.py:44-128 | no action issues a sleep of its own, and the action is reported unknown exactly when it is missing or not one of goto, click, hover, type, press, wait_for, scroll |
| Executor.PerformZeroMatches | project/src/agent/action_executor.py:57-104 | a click, hover or targeted type whose target has no match issues only the trailing sleep and logs "not found" |
| Executor.PerformHoverType | project/src/agent/action_executor.py:85-102 | hover hovers the first match; a targeted type clears the field, then types with a 50 ms delay |
| Executor.PerformTypeFocused | project/src/agent/action_executor.py:91-96 | a type step without a selector (missing or `{}`) types into the focused element and looks nothing up |
| Executor.PerformPress | project/src/agent/action_executor.py:105-131 | a press step issues its key expression's events, default "Enter", then the sleep, in order: nothing is caught if and only if every call returns, and otherwise the first call that raised is the last one issued and its exception is the one caught |
| Executor.ChordLayout | project/src/agent/action_executor.py:113-117 | a chord puts the modifiers down in order, presses the final key, and releases the modifiers in reverse order |
| Executor.PressChord | project/src/agent/action_executor.py:108-117 | with '+', the modifiers are the parts but the last (one per '+') and the final key is the last part, which holds no '+'; joining them back gives the expression |
| Executor.PressSingle | project/src/agent/action_executor.py:118-119 | without '+', a key expression is a single press |
| Executor.PressOfParts | project/src/agent/action_executor.py:108-117 | splitting a chord written from '+'-free parts gives back exactly those modifiers and that final key |
| Executor.PressTwoModifiers | project/src/agent/action_executor.py:108-117 | a chord like "Control+Shift+K" is the first modifier down, the second down, the key pressed, the second up, the first up |
| Executor.PerformDefaults | project/src/agent/action_executor.py:39-129 | the defaults are a 300 ms sleep, an 800 px scroll, waiting for "visible" and pressing "Enter" |
| Executor.PerformWaitFor | project/src/agent/action_executor.py:120-131 | wait_for waits 10 s for the resolved target in the state its input names, "visible" when it has none; a wait that raises is caught and skips the sleep, otherwise the sleep follows and its exception is the one caught |
| Executor.PerformUnknown | project/src/agent/action_executor.py:127-129 | an unknown or missing action does nothing but sleep |
| Executor.PerformScrollBadInput | project/src/agent/action_executor.py:124-131 | a scroll input that `int()` rejects raises inside the block, so nothing is issued, not even the sleep |
| Executor.PerformGoto | project/src/agent/action_executor.py:44-47 | goto navigates to the css value with a 30 s timeout, without checking it; without a URL it is a no-op |
| Detector.Observe | project/src/agent/state_detector.py:39-40 | the signature counts as changed if and only if it differs from the remembered one; the new one is remembered |
| Detector.ObserveRepeat | project/src/agent/state_detector.py:39-40 | the same signature twice in a row is unchanged the second time |
| Detector.ObserveForgets | project/src/agent/state_detector.py:13-40 | the memory is one slot: only the immediately previous signature affects the result |
| Detector.ObserveOneSlot | project/src/agent/state_detector.py:39-40 | A, B, A with A ≠ B reports a change at the third observation, because the memory is not a history |
| Detector.NewDetector | project/src/agent/state_detector.py:9-13 | a fresh detector keeps the two settle delays it is given and remembers no signature |
| Detector.Signature | project/src/agent/state_detector.py:23-27 | the signature is the hash of the markup when it can be read, and otherwise the exception reading it raised |
| Detector.Stabilize | project/src/agent/state_detector.py:15-21 | settling issues the idle wait, whose failure is swallowed, then the two sleeps; it raises nothing if and only if both sleeps return, and otherwise the sleep that raised is the last call and its exception propagates |
| Detector.DefaultSettleBudget | project/src/agent/state_detector.py:9-21 | with the delays `run_once` passes by default (main.py:24-25, 1500 ms and 500 ms), settling sleeps 2 s in all and the idle wait names no time of its own |
| Detector.StabilizeAlwaysSleeps | project/src/agent/state_detector.py:16-21 | a failing idle wait does not stop the two fixed sleeps |
| Detector.Detect | project/src/agent/state_detector.py:29-49 | detect succeeds exactly when settling, both probes and the markup read all succeed; then the URL, the modal and overlay flags and the timestamp are what the page reports after settling, the signature is the hash of the markup, changed is true exactly when the signature differs from the remembered one, significant is changed or modal or overlay, and the memory holds the new signature; a raising detect leaves the memory untouched |
| Detector.FirstDetectSignificant | project/src/agent/state_detector.py:13-47 | the first detect of a fresh detector always reports changed and significant |
| Detector.DetectSameMarkup | project/src/agent/state_detector.py:23-47 | the signature depends only on the markup: two detects in a row on the same markup report no change, so the second is significant only through a modal or an overlay |
| Detector.ProbeFailurePropagates | project/src/agent/state_detector.py:29-38 | nothing in detect is caught except the idle wait: a failing sleep, or else the first of the modal probe, the overlay probe and the markup read that raises, is the exception detect lets out, and the memory is kept |
| Screenshots.NewGuard | project/src/capture/screenshot_manager.py:13-15 | a new manager starts at counter 0 with no remembered URL or length |
| Screenshots.TaskDir | project/src/capture/screenshot_manager.py:17-22 | the task directory is `<out>/<app>/<slug>` with the slug cut to 80 characters |
| Screenshots.DescriptionSlug | project/src/capture/screenshot_manager.py:39 | the slug is the description lowercased with each space replaced by '-', cut to its first 70 characters |
| Screenshots.FileName | project/src/capture/screenshot_manager.py:39-40 | a file name is "step-", the zero-padded counter, '-', the description slug and ".png", in that order |
| Screenshots.Sample | project/src/capture/screenshot_manager.py:26-31 | the guard reads both URL and length, or neither when reading the markup raised; what it reads is the page's URL and the length of its markup |
| Screenshots.CaptureReadable | project/src/capture/screenshot_manager.py:26-45 | on readable markup m, a capture is skipped if and only if the remembered pair is the page's URL and len(m), and a saved screenshot remembers exactly that pair |
| Screenshots.Capture | project/src/capture/screenshot_manager.py:24-45 | a capture is skipped (nothing issued, state kept) if and only if URL and length equal the remembered pair; otherwise the counter goes up by one before the directory is made; the screenshot is taken whenever making the directory returned; the capture is saved if and only if both calls return, and a failed one carries the exception of the call that raised, the last issued; the memory changes only after a saved screenshot |
| Screenshots.CaptureTwice | project/src/capture/screenshot_manager.py:33-45 | two captures of an unchanged page: the first returns a non-empty path, the second returns "" |
| Screenshots.FirstCaptureUnreadable | project/src/capture/screenshot_manager.py:14-33 | on a fresh manager, a capture is skipped if and only if the markup cannot be read |
| Screenshots.FileNamesDistinct | project/src/capture/screenshot_manager.py:37-40 | different counters give different file names, so no screenshot overwrites another in the same task directory |
| Screenshots.FileNameShape | project/src/capture/screenshot_manager.py:39-40 | a file name is "step-", the two-digit counter, "-", the description slug, ".png" |
| Planner.SelectProvider | project/src/utils/ai_helpers.py:8-27 | Anthropic is used if and only if its key is set and its client initialises; OpenAI if and only if the Anthropic key is unset, its key is set and it initialises; a failing Anthropic client leaves no provider instead of falling back |
| Planner.CreationSteps | project/src/utils/ai_helpers.py:123-130 | "create" or "new" adds two steps with "database", else one with "page", else none |
| Planner.FilterSteps | project/src/utils/ai_helpers.py:132-136 | "filter" adds two steps |
| Planner.HeuristicPlan | project/src/utils/ai_helpers.py:101-147 | the heuristic plan has 3 to 7 steps: it starts with goto to the URL and a zero scroll, ends with "Final state capture", and every step carries a capture hint |
| Planner.HeuristicKeywords | project/src/utils/ai_helpers.py:122-136 | each optional step is in the plan if and only if its keyword rule fires on the lowercased task |
| Planner.HeuristicStepsKnown | project/src/utils/ai_helpers.py:104-145 | every step of the heuristic plan is the navigation step or one of seven fixed steps: the settling scroll, the five keyword steps and the final capture |
| Planner.HeuristicSteps | project/src/utils/ai_helpers.py:104-145 | performed, the heuristic plan navigates to the start URL when there is one, scrolls only by 0, and never clicks the page body |
| Planner.ContainsPrefix | project/src/utils/ai_helpers.py:82-85 | a reply containing "```json" contains "```" |
| Planner.StripFences | project/src/utils/ai_helpers.py:81-85 | a reply without a fence passes through unchanged; after unwrapping a fenced reply no fence is left |
| Planner.StripFencesIdempotent | project/src/utils/ai_helpers.py:82-85 | unwrapping twice is unwrapping once |
| Planner.StripFencesJson | project/src/utils/ai_helpers.py:82-83 | with a "```json" in the reply, the text from the first one to the next fence comes back stripped, whatever precedes it, and whatever follows that fence when it does not start with a backtick |
| Planner.StripFencesJsonOverlap | project/src/utils/ai_helpers.py:82-83 | in "````json", the cut at the second "```json" falls one backtick late, so that backtick stays with the unwrapped text |
| Planner.StripFencesPlain | project/src/utils/ai_helpers.py:84-85 | in a reply with a fence but no "```json", the text between the first two fences comes back stripped, whatever precedes or follows |
| Planner.FenceFirstAt | project/src/utils/ai_helpers.py:83-85 | after fence-free text not ending in a backtick, the first fence is the next one, whatever follows |
| Planner.JsonFenceFirstAt | project/src/utils/ai_helpers.py:82-83 | after text without "```json", the first "```json" is the next one, whatever follows |
| Planner.StripFencesRoundTrip | project/src/utils/ai_helpers.py:82-83 | a fence-free body, not ending in a backtick, wrapped as a JSON code block, comes back stripped |
| Planner.ReplyText | project/src/utils/ai_helpers.py:62-79 | an empty Anthropic response reads as "{}"; an empty OpenAI one raises; a failing call raises |
| Planner.AiPlan | project/src/utils/ai_helpers.py:29-99 | the planner always returns an object with a non-empty steps list; without a provider or after a failed call it is the heuristic plan; anything else is the decoded reply |
| Planner.AiPlanUsesReply | project/src/utils/ai_helpers.py:87-99 | a decoded reply is used if and only if it is an object with a non-empty "steps" list, else the heuristic plan is |
| Planner.EmptyAnthropicReply | project/src/utils/ai_helpers.py:69-99 | an empty Anthropic response falls back to the heuristic plan |
| TaskPlanner.NormalizePlan | project/src/agent/task_planner.py:12-14 | the result always has "steps"; an object with "steps" passes through unchanged; anything else becomes `{"steps": []}` |
| TaskPlanner.NormalizeIdempotent | project/src/agent/task_planner.py:12-14 | normalising twice is normalising once |
| TaskPlanner.Plan | project/src/agent/task_planner.py:9-14 | the task planner's result has a non-empty steps list |
| TaskPlanner.PlanIsAiPlan | project/src/agent/task_planner.py:12-14 | normalising never changes what the planner returns |
| Runner.ScreenshotCount | project/main.py:95 | the reported screenshot count is at most the number of records |
| Runner.ShouldCapture | project/main.py:50-54 | the first step and the plan's last (by the untruncated length) are always captured; any other step exactly when its hint is set or its state is significant |
| Runner.ShotValue | project/main.py:51-92 | a record's screenshot is missing exactly when the capture raised, and is truthy exactly when a non-empty path was saved |
| Runner.PlanSteps | project/main.py:37 | a plan without "steps" gives no steps |
| Runner.RunStep | project/main.py:44-92 | every step appends exactly one record with its 1-based index, description and action; the counter goes up by at most one, and by one whenever the record has a screenshot; the page history, detector, guard and records carry over to the next step |
| Runner.RunStepRecord | project/main.py:49-92 | an error record appears if and only if detection raised; it carries the message, the outcome of the `step-<i>-error` capture and the clock after it, and the detector memory is unchanged; a success record carries the detected URL, flags and timestamp; a capture under the step's description (default `step-<i>`) is made exactly when one is due, its outcome is the record's screenshot, and otherwise the screenshot is None and the guard untouched; the next step starts from the page after the action, the detection and the capture, if one was made |
| Runner.FirstStepCaptured | project/main.py:54-58 | the first step always captures: its success record lacks a screenshot exactly when that capture raised, and the guard is the capture's |
| Runner.StepNotForced | project/main.py:50-71 | a step that is neither the first nor the plan's last has, on a detected state, a capture exactly when its hint is set or the state is significant; with a capture, the record's screenshot, the guard and the page history are the capture's, and without one the screenshot is None and guard and page are as detection left them |
| Runner.LastRecordedNotForced | project/main.py:43-71 | when 2 <= max_steps < len(steps), the loop over `steps[:max_steps]` runs exactly max_steps steps, its last one is `steps[max_steps-1]`, judged against len(steps), and its record has a screenshot only through the step's hint or a significant state |
| Runner.ScreenshotCountAppend | project/main.py:95 | a new record adds one to the count exactly when its screenshot is truthy |
| Runner.RunStepProgress | project/main.py:43-92 | one more step keeps the records numbered and in plan order, with the screenshot count at most the counter, and the counter at most the number of records |
| Runner.LoopSnoc | project/main.py:43 | one more iteration of the `for` loop applies its body once more, at the next 1-based position |
| Runner.RunOnce | project/main.py:17-95 | the result is the loop body applied in turn to `steps[:max_steps]` from a fresh detector and manager, each step numbered from 1 and judged against `len(steps)`, the untruncated length; `run_once` makes exactly `len(steps[:max_steps])` records, numbered 1..n in plan order, each with its step's description and action; at most as many screenshots are reported as the counter shows, and the counter never exceeds the records |
| Runner.EmptyPlanRecordsNothing | project/main.py:37-43 | a plan without "steps" makes no records, normalised or not |
| Text.IndexFrom | project/src/utils/ai_helpers.py:82-85 | the substring search finds the first occurrence at or after a position, or reports that there is none |
| Text.ContainsIff | project/src/utils/ai_helpers.py:82-84 | `pat in s` holds if and only if `pat` occurs at some position |
| Text.BeforeHasNoSeparator | project/src/utils/ai_helpers.py:83-85 | `s.split(sep)[0]` does not contain `sep` |
| Text.Strip | project/src/utils/ai_helpers.py:83-85 | `strip()` removes exactly the leading and the trailing whitespace: what it drops at either end is whitespace, and what it keeps neither starts nor ends with whitespace |
| Text.StripIdempotent | project/src/utils/ai_helpers.py:83-85 | stripping twice is stripping once |
| Text.StripKeepsAbsence | project/src/utils/ai_helpers.py:83-85 | stripping introduces no new substring |
| Text.SliceTo | project/main.py:43 | `xs[:n]` has length min(n, len) for n ≥ 0 and max(len + n, 0) for n < 0, and is a prefix |
| Text.SplitOn | project/src/agent/action_executor.py:110 | `split` on a character gives at least one part, none containing it |
| Text.JoinSplit | project/src/agent/action_executor.py:110 | joining the split parts gives back the string, with one more part than separators |
| Text.SplitJoin | project/src/agent/action_executor.py:110 | splitting joined separator-free parts gives back the parts |
| Text.ZeroPad2 | project/src/capture/screenshot_manager.py:40 | `{:02d}` gives the number's digits, exactly two below 100, and no leading zero beyond two digits |
| Text.DecimalRoundTrip | project/main.py:56-76 | the decimal text of a number has that number's value |
| Text.DigitPrefixesDiffer | project/src/capture/screenshot_manager.py:40 | different digit strings before a '-' make different names |
| Text.ParseIntRoundTrip | project/src/agent/action_executor.py:125 | `int(str(n)) == n` for every integer |
| Text.ParseInt | project/src/agent/action_executor.py:125 | `int()` accepts the stripped text if and only if it is an optional sign followed by digits with single underscores between them, and then gives the digits' value, negated after a '-'; everything it accepts is digits and underscores past the sign, and a digit string is read as its value |
| Text.ParseUnsigned | project/src/agent/action_executor.py:125 | `int()` of a digit string is its decimal value |
| Text.ParseNegative | project/src/agent/action_executor.py:125 | `int()` of '-' and a digit string is the negated value |

## Left out

- Playwright itself: how a real page behaves, timeouts expiring, and network idleness. The page oracle decides every reply, and time budgets are the sums of the timeouts the calls name.
- Asynchrony, logging and log messages, including the `text[:50]` truncation in log lines.
- The language-model calls, their prompts and `json.loads`. These are parameters: the reply outcome and a decoder oracle.
- sha256 and its UTF-8 encoding with `errors="ignore"`. `dom_signature` applies a hash function parameter to the markup.
- `slugify` is a function parameter. `Path` joining is modelled as `/` concatenation, without normalising.
- JSON values of the wrong type are not modelled: a "steps" value that is not a list, a step that is not a dictionary, non-string inputs (such as `"input": 0`), and keys present with a `null` value (treated like missing keys).
- `str.lower()` and `int()` are modelled for ASCII: Unicode case mappings and non-ASCII digits are not. Whitespace for `strip()` and `int()` follows Python's `str.isspace`.
- `re.compile(pattern, re.I)` is not compiled or matched: a role-pattern locator carries the pattern as text, and the page oracle answers for it. An invalid `name_regex` makes `_resolve` raise `re.error` before any call is issued; the model does not distinguish it and resolves the locator as usual.
- The settling idle wait in `detect` names no timeout, so it counts 0 in a call sequence's time budget: Playwright's default idle budget is not modelled.
- The unused `significance_threshold`, the environment-variable parsing of the detector settings, and the `ScreenshotManager` constructor's own `mkdir` of the output root.
- The unknown-app `SystemExit` and the login and browser launch (project/src/utils/browser_helpers.py is not part of this model), and metadata writing (project/src/capture/metadata_handler.py is not part of this model).
- The wall clock behind `time.time()` is the page's `clock` read, a function of the calls issued so far.

## Notes on the code

- The click retry does not wait for network idle again. The worst-case click budget is therefore 3 + 6 + 6 + 3 + 6 = 24 s.
- The screenshot counter is incremented before the directory is made and the screenshot taken. A capture that raises still uses up its number.
- The first step always attempts a capture. That capture can still be skipped as a duplicate (recorded as "") or raise (recorded as no screenshot).
- The forced capture of the last step compares `i` with the length of the whole plan, not of `steps[:max_steps]`. When `max_steps` cuts the plan, the last step that runs is not forced.
- The fence unwrapping cuts at the first "```json" and then at the next "```". In a reply such as "```json X````json Y```" the second cut falls one backtick late, and the unwrapped text is "X`".
- The record count is `len(steps[:max_steps])`. This equals `min(len(steps), max_steps)` for `max_steps >= 0`. A negative `max_steps` drops steps from the end, as Python slicing does.

=== FILE: basics.dfy ===
/** Failure-carrying wrappers shared by every module of the model.

    `Option` stands for a Python value that may be `None` (or a dictionary key
    that may be missing); `Outcome` stands for a call that either returns a
    value or raises an exception, the exception being reduced to its message.
 */
module Basics {

  datatype Option<+T> = None | Some(value: T) {

    /** The wrapped value, or `default` when there is none (Python's `d.get(k, default)`). */
    function GetOr(default: T): T {
      match this
      case Some(v) => v
      case None => default
    }
  }

  datatype Outcome<+T> = Ok(value: T) | Raise(message: string)

}

=== FILE: browser.dfy ===
/** The browser as seen by the automation core.

    Every Playwright operation the core performs is a `Call`; the page is an
    oracle that answers reads (URL, markup, match counts, probes, clock) and
    decides whether each call returns or raises, as a function of the calls
    issued before it. Nothing is assumed about how a real browser behaves.
 */
module Browser {
  import opened Basics
  import opened Selectors

  /** One browser operation. Element operations act on the first match of their locator. */
  datatype Call =
    | Navigate(url: string, timeoutMs: nat)
    | ScrollIntoView(target: Locator, timeoutMs: nat)
    | Click(target: Locator, timeoutMs: nat)
    | WaitNetworkIdle(idleBudgetMs: Option<nat>)   // None: Playwright's own default budget
    | Hover(target: Locator, timeoutMs: nat)
    | KeyboardType(text: string, delayMs: nat)      // keystrokes to the focused element
    | Fill(target: Locator, value: string, timeoutMs: nat)
    | TypeInto(target: Locator, text: string, delayMs: nat, timeoutMs: nat)
    | KeyDown(key: string)
    | KeyPress(key: string)
    | KeyUp(key: string)
    | WaitForState(target: Locator, state: string, timeoutMs: nat)
    | Wheel(dx: int, dy: int)
    | Sleep(ms: int)
    | MakeDirs(path: string)
    | Screenshot(path: string, fullPage: bool)

  /** All calls issued in the run so far, oldest first. */
  type History = seq<Call>

  datatype Reply = Returned | Raised(message: string)

  /** The page oracle. Reads are not recorded as calls; `markup`, `matches`
      and the two probes may raise, `url` and `clock` may not. */
  datatype Page = Page(
    url: History -> string,
    markup: History -> Outcome<string>,
    matches: (History, Locator) -> Outcome<nat>,
    modalProbe: History -> Outcome<bool>,
    overlayProbe: History -> Outcome<bool>,
    clock: History -> int,
    reply: (History, Call) -> Reply)

  /** The calls issued so far by one `try` block (after the history `h` it
      started from), and the exception that ended it, if any. */
  datatype Exec = Exec(issued: seq<Call>, error: Option<string>)

  const Start := Exec([], None)

  /** An unguarded call: once an exception is pending nothing more is issued. */
  function Issue(page: Page, h: History, e: Exec, c: Call): Exec {
    if e.error.Some? then e
    else match page.reply(h + e.issued, c)
      case Returned => Exec(e.issued + [c], None)
      case Raised(m) => Exec(e.issued + [c], Some(m))
  }

  /** A call wrapped in `try: ... except Exception: pass`. */
  function Attempt(page: Page, h: History, e: Exec, c: Call): Exec {
    if e.error.Some? then e else Exec(e.issued + [c], None)
  }

  /** A read raised `m`: the block stops with that exception. */
  function Abort(e: Exec, m: string): Exec {
    if e.error.Some? then e else Exec(e.issued, Some(m))
  }

  /** The pending exception was raised by the last call issued. */
  predicate RaisedByLast(page: Page, h: History, e: Exec) {
    && e.error.Some? && |e.issued| > 0
    && page.reply(h + e.issued[..|e.issued| - 1], e.issued[|e.issued| - 1]) == Raised(e.error.value)
  }

  /** The block's exception after one call: none, or the one the call raised. */
  function ErrorOf(reply: Reply): (err: Option<string>)
    ensures err.Some? <==> reply.Raised?
    ensures err.Some? ==> err.value == reply.message
  {
    match reply
    case Returned => None
    case Raised(m) => Some(m)
  }

  /** Issued one after the other after `h`, every call of `cs` returns: the
      first one does, and then all the rest do after it. */
  predicate AllReturned(page: Page, h: History, cs: seq<Call>)
    decreases |cs|
  {
    |cs| == 0 || (page.reply(h, cs[0]) == Returned && AllReturned(page, h + [cs[0]], cs[1..]))
  }

  /** `e` is what unguarded calls give: every call before the last one
      returned, and the block has an exception exactly when the last call
      raised it. */
  predicate Unguarded(page: Page, h: History, e: Exec) {
    if e.error.None? then AllReturned(page, h, e.issued)
    else |e.issued| > 0 && AllReturned(page, h, e.issued[..|e.issued| - 1]) && RaisedByLast(page, h, e)
  }

  /** Unguarded calls one after the other: a prefix of `cs` is issued, all of
      it exactly when every call returned, and otherwise the run stops at
      the first call that raised, with that call's exception. */
  function IssueAll(page: Page, h: History, e: Exec, cs: seq<Call>): (r: Exec)
    ensures e.error.Some? ==> r == e
    ensures e.issued <= r.issued <= e.issued + cs
    ensures r.error.None? ==> |r.issued| == |e.issued| + |cs|
    ensures e.error.None? && r.error.Some? ==> RaisedByLast(page, h, r)
    ensures e.error.None? ==> (r.error.None? <==> AllReturned(page, h + e.issued, cs))
    ensures Unguarded(page, h, e) ==> Unguarded(page, h, r)
    decreases |cs|
  {
    if |cs| == 0 || e.error.Some? then e
    else
      var e1 := Issue(page, h, e, cs[0]);
      IssueOne(page, h, e, cs[0]);
      assert e.issued + cs == e1.issued + cs[1..];
      assert h + e.issued + [cs[0]] == h + e1.issued;
      if e1.error.Some? then e1
      else IssueAll(page, h, e1, cs[1..])
  }

  /** Two unguarded calls, the second issued only when the first returned. */
  function IssueTwo(page: Page, h: History, c1: Call, c2: Call): (e: Exec)
    ensures e.issued <= [c1, c2] && |e.issued| >= 1
    ensures e.error.None? <==> page.reply(h, c1) == Returned && page.reply(h + [c1], c2) == Returned
    ensures e.error.None? ==> e.issued == [c1, c2]
    ensures page.reply(h, c1) == Returned ==> e.issued == [c1, c2]
    ensures e.error.Some? ==> RaisedByLast(page, h, e)
    ensures Unguarded(page, h, e)
  {
    var e := IssueAll(page, h, Start, [c1, c2]);
    assert h + Start.issued == h;
    assert [c1, c2][1..] == [c2] && [c2][1..] == [];
    assert AllReturned(page, h + [c1] + [c2], []);
    assert AllReturned(page, h + [c1], [c2]) <==> page.reply(h + [c1], c2) == Returned;
    assert AllReturned(page, h, [c1, c2]) <==> page.reply(h, c1) == Returned && page.reply(h + [c1], c2) == Returned;
    e
  }

  /** A call issued with no exception pending is recorded, it keeps the
      block unguarded, and if it raised, the block's exception is its. */
  lemma IssueOne(page: Page, h: History, e: Exec, c: Call)
    requires e.error.None?
    ensures var r := Issue(page, h, e, c);
      && r.issued == e.issued + [c]
      && r.error == ErrorOf(page.reply(h + e.issued, c))
      && (r.error.Some? ==> RaisedByLast(page, h, r))
      && (Unguarded(page, h, e) ==> Unguarded(page, h, r))
  {
    var r := Issue(page, h, e, c);
    assert r.issued[..|r.issued| - 1] == e.issued;
    if Unguarded(page, h, e) && r.error.None? {
      AllReturnedSnoc(page, h, e.issued, c);
    }
  }

  /** All of `cs + [c]` returns when all of `cs` does and then `c` does. */
  lemma {:induction false} AllReturnedSnoc(page: Page, h: History, cs: seq<Call>, c: Call)
    ensures AllReturned(page, h, cs + [c]) <==> AllReturned(page, h, cs) && page.reply(h + cs, c) == Returned
    decreases |cs|
  {
    if |cs| == 0 {
      assert cs + [c] == [c] && h + cs == h;
    } else {
      assert (cs + [c])[0] == cs[0] && (cs + [c])[1..] == cs[1..] + [c];
      AllReturnedSnoc(page, h + [cs[0]], cs[1..], c);
      assert h + [cs[0]] + cs[1..] == h + cs;
    }
  }

  /** The time budget a call is given: its own timeout, or its sleep. An idle
      wait without a timeout runs on Playwright's default, which this model does
      not know, so it counts for nothing here. */
  function Budget(c: Call): nat {
    match c
    case Navigate(_, t) => t
    case ScrollIntoView(_, t) => t
    case Click(_, t) => t
    case WaitNetworkIdle(t) => t.GetOr(0)
    case Hover(_, t) => t
    case Fill(_, _, t) => t
    case TypeInto(_, _, _, t) => t
    case WaitForState(_, _, t) => t
    case Sleep(ms) => if ms < 0 then 0 else ms
    case _ => 0
  }

  function TotalBudget(cs: seq<Call>): nat {
    if |cs| == 0 then 0 else TotalBudget(cs[..|cs| - 1]) + Budget(cs[|cs| - 1])
  }

  function CountClicks(cs: seq<Call>): nat {
    if |cs| == 0 then 0 else CountClicks(cs[..|cs| - 1]) + (if cs[|cs| - 1].Click? then 1 else 0)
  }
}

=== FILE: detector.dfy ===
/** The state detector (`StateDetector`).

    After every step the detector lets the page settle, samples URL,
    modal and overlay flags and a signature of the markup, and compares the
    signature with the one it remembered from its previous call: a one-slot
    memory, overwritten on every successful call.
 */
module Detector {
  import opened Basics
  import opened Browser

  const DefaultNetworkIdleMs := 1500
  const DefaultCaptureDelayMs := 500

  /** The detector's two settle delays and its one-slot signature memory. */
  datatype StateDetector = StateDetector(networkIdleMs: int, captureDelayMs: int, lastSignature: Option<string>)

  /** A fresh detector keeps the two delays it is given and remembers no
      signature. */
  function NewDetector(networkIdleMs: int, captureDelayMs: int): (d: StateDetector)
    ensures d.networkIdleMs == networkIdleMs && d.captureDelayMs == captureDelayMs
    ensures d.lastSignature.None?
  {
    StateDetector(networkIdleMs, captureDelayMs, None)
  }

  /** What `detect` returns. */
  datatype PageState = PageState(
    url: string,
    hasModal: bool,
    hasOverlay: bool,
    signature: string,
    changed: bool,
    significant: bool,
    timestamp: int)

  /** The calls `detect` issued, its result or the exception it let out, and
      the detector afterwards. */
  datatype Detection = Detection(issued: seq<Call>, state: Outcome<PageState>, detector: StateDetector)

  // ---------------------------------------------------------------------------
  // The one-slot memory
  // ---------------------------------------------------------------------------

  datatype Observation = Observation(changed: bool, next: StateDetector)

  /** Compare a signature with the remembered one and remember it instead. */
  function Observe(d: StateDetector, signature: string): (o: Observation)
    ensures o.changed <==> d.lastSignature != Some(signature)
    ensures o.next.lastSignature == Some(signature)
    ensures o.next.networkIdleMs == d.networkIdleMs && o.next.captureDelayMs == d.captureDelayMs
  {
    Observation(d.lastSignature.None? || d.lastSignature.value != signature,
                d.(lastSignature := Some(signature)))
  }

  /** Observing the same signature twice in a row reports no change the second time. */
  lemma ObserveRepeat(d: StateDetector, s: string)
    ensures !Observe(Observe(d, s).next, s).changed
  {
  }

  /** Only the immediately previous signature matters: whatever came before
      it is forgotten. */
  lemma ObserveForgets(d: StateDetector, e: StateDetector, a: string, s: string)
    requires d.networkIdleMs == e.networkIdleMs && d.captureDelayMs == e.captureDelayMs
    ensures Observe(Observe(d, a).next, s) == Observe(Observe(e, a).next, s)
  {
  }

  /** A, then B, then A again: the third observation reports a change, since
      the memory holds B and not a history containing A. */
  lemma ObserveOneSlot(d: StateDetector, a: string, b: string)
    requires a != b
    ensures var d1 := Observe(d, a).next;
      var d2 := Observe(d1, b).next;
      Observe(d1, b).changed && Observe(d2, a).changed
  {
  }

  // ---------------------------------------------------------------------------
  // detect
  // ---------------------------------------------------------------------------

  /** `stabilize`: a best-effort wait for network idle, then the two fixed sleeps. */
  function StabilizeCalls(d: StateDetector): seq<Call> {
    [WaitNetworkIdle(None), Sleep(d.networkIdleMs), Sleep(d.captureDelayMs)]
  }

  function Stabilize(page: Page, h: History, d: StateDetector): (e: Exec)
    ensures 2 <= |e.issued| && e.issued <= StabilizeCalls(d)
    ensures e.error.None? ==> e.issued == StabilizeCalls(d)
    ensures e.error.Some? ==> RaisedByLast(page, h, e) && e.issued[|e.issued| - 1].Sleep?
    ensures var idle, first := h + [WaitNetworkIdle(None)], Sleep(d.networkIdleMs);
      e.error.None? <==>
        page.reply(idle, first) == Returned && page.reply(idle + [first], Sleep(d.captureDelayMs)) == Returned
    ensures Unguarded(page, h + [WaitNetworkIdle(None)], Exec(e.issued[1..], e.error))
  {
    var sleeps := IssueTwo(page, h + [WaitNetworkIdle(None)], Sleep(d.networkIdleMs), Sleep(d.captureDelayMs));
    StabilizeShape(d, sleeps);
    StabilizeRaise(page, h, d, sleeps);
    Exec([WaitNetworkIdle(None)] + sleeps.issued, sleeps.error)
  }

  /** The calls `stabilize` issues: a prefix of its plan of at least two
      calls, all of it when nothing raised. */
  lemma StabilizeShape(d: StateDetector, sleeps: Exec)
    requires var ss := [Sleep(d.networkIdleMs), Sleep(d.captureDelayMs)];
      sleeps.issued <= ss && |sleeps.issued| >= 1 && (sleeps.error.None? ==> sleeps.issued == ss)
    ensures var e := Exec([WaitNetworkIdle(None)] + sleeps.issued, sleeps.error);
      && 2 <= |e.issued| && e.issued <= StabilizeCalls(d)
      && (e.error.None? ==> e.issued == StabilizeCalls(d))
  {
    assert StabilizeCalls(d) == [WaitNetworkIdle(None)] + [Sleep(d.networkIdleMs), Sleep(d.captureDelayMs)];
  }

  /** The exception `stabilize` raises is the one the raising sleep raised. */
  lemma StabilizeRaise(page: Page, h: History, d: StateDetector, sleeps: Exec)
    requires sleeps.issued <= [Sleep(d.networkIdleMs), Sleep(d.captureDelayMs)]
    requires sleeps.error.Some? ==> RaisedByLast(page, h + [WaitNetworkIdle(None)], sleeps)
    ensures var e := Exec([WaitNetworkIdle(None)] + sleeps.issued, sleeps.error);
      && (e.error.Some? ==> RaisedByLast(page, h, e) && e.issued[|e.issued| - 1].Sleep?)
      && Exec(e.issued[1..], e.error) == sleeps
  {
    var e := Exec([WaitNetworkIdle(None)] + sleeps.issued, sleeps.error);
    assert e.issued[1..] == sleeps.issued;
    if e.error.Some? {
      assert h + e.issued[..|e.issued| - 1] == h + [WaitNetworkIdle(None)] + sleeps.issued[..|sleeps.issued| - 1];
      assert e.issued[|e.issued| - 1] == sleeps.issued[|sleeps.issued| - 1];
    }
  }

  /** `dom_signature`: the hash of the markup, or the exception reading it raised. */
  function Signature(page: Page, h: History, hash: string -> string): (sig: Outcome<string>)
    ensures sig.Ok? <==> page.markup(h).Ok?
    ensures sig.Ok? ==> sig.value == hash(page.markup(h).value)
    ensures sig.Raise? ==> sig.message == page.markup(h).message
  {
    match page.markup(h)
    case Ok(m) => Ok(hash(m))
    case Raise(e) => Raise(e)
  }

  /** `StateDetector.detect`. The sleeps and the probes are unguarded, so
      their exceptions leave `detect`, and then the memory is untouched. */
  function Detect(d: StateDetector, page: Page, h: History, hash: string -> string): (r: Detection)
    ensures r.issued == Stabilize(page, h, d).issued
    ensures r.state.Raise? ==> r.detector == d
    ensures var now := h + StabilizeCalls(d);
      r.state.Ok? <==> && Stabilize(page, h, d).error.None?
                       && page.modalProbe(now).Ok? && page.overlayProbe(now).Ok? && page.markup(now).Ok?
    ensures r.state.Ok? ==> var s := r.state.value;
      && r.issued == StabilizeCalls(d)
      && page.markup(h + r.issued).Ok? && s.signature == hash(page.markup(h + r.issued).value)
      && s.url == page.url(h + r.issued)
      && page.modalProbe(h + r.issued) == Ok(s.hasModal) && page.overlayProbe(h + r.issued) == Ok(s.hasOverlay)
      && s.timestamp == page.clock(h + r.issued)
      && (s.changed <==> d.lastSignature != Some(s.signature))
      && r.detector == d.(lastSignature := Some(s.signature))
      && s.significant == (s.changed || s.hasModal || s.hasOverlay)
  {
    var settled := Stabilize(page, h, d);
    if settled.error.Some? then Detection(settled.issued, Raise(settled.error.value), d)
    else
      var now := h + settled.issued;
      var url := page.url(now);
      match page.modalProbe(now)
      case Raise(m) => Detection(settled.issued, Raise(m), d)
      case Ok(modal) =>
        match page.overlayProbe(now)
        case Raise(m) => Detection(settled.issued, Raise(m), d)
        case Ok(overlay) =>
          match Signature(page, now, hash)
          case Raise(m) => Detection(settled.issued, Raise(m), d)
          case Ok(signature) =>
            var o := Observe(d, signature);
            var state := PageState(url, modal, overlay, signature, o.changed,
                                   o.changed || modal || overlay, page.clock(now));
            Detection(settled.issued, Ok(state), o.next)
  }

  /** The first `detect` of a fresh detector always reports a change, and so
      a significant state, whatever the modal and overlay flags. */
  lemma FirstDetectSignificant(networkIdleMs: int, captureDelayMs: int, page: Page, h: History, hash: string -> string)
    ensures var r := Detect(NewDetector(networkIdleMs, captureDelayMs), page, h, hash);
      r.state.Ok? ==> r.state.value.changed && r.state.value.significant
  {
  }

  /** Two detections in a row on the same markup: the second reports no
      change, and is significant only through a modal or an overlay. */
  lemma DetectSameMarkup(d: StateDetector, page: Page, h: History, h': History, hash: string -> string)
    requires var r := Detect(d, page, h, hash);
      r.state.Ok? && Detect(r.detector, page, h', hash).state.Ok?
      && page.markup(h' + StabilizeCalls(r.detector)) == page.markup(h + r.issued)
    ensures var r := Detect(d, page, h, hash);
      var s := Detect(r.detector, page, h', hash).state.value;
      !s.changed && (s.significant <==> s.hasModal || s.hasOverlay)
  {
  }

  /** With the default delays (1500 ms and 500 ms), settling sleeps 2 s in
      all, and the idle wait names no time of its own. */
  lemma DefaultSettleBudget()
    ensures var d := NewDetector(DefaultNetworkIdleMs, DefaultCaptureDelayMs);
      TotalBudget(StabilizeCalls(d)) == 2000 && TotalBudget(StabilizeCalls(d)[..1]) == 0
  {
    var cs := StabilizeCalls(NewDetector(DefaultNetworkIdleMs, DefaultCaptureDelayMs));
    assert cs[..1][..0] == [] && TotalBudget(cs[..1]) == 0;
    assert cs[..2][..1] == cs[..1] && TotalBudget(cs[..2]) == 1500;
    assert cs[..3][..2] == cs[..2] && cs[..3] == cs;
  }

  /** A failing network-idle wait is swallowed: once the first sleep
      returns, both fixed sleeps have been issued. */
  lemma StabilizeAlwaysSleeps(page: Page, h: History, d: StateDetector, hash: string -> string)
    requires page.reply(h + [WaitNetworkIdle(None)], Sleep(d.networkIdleMs)) == Returned
    ensures Detect(d, page, h, hash).issued == StabilizeCalls(d)
  {
    var plan := StabilizeCalls(d);
    var waited := Attempt(page, h, Start, plan[0]);
    assert waited == Exec([WaitNetworkIdle(None)], None);
    assert h + waited.issued == h + [WaitNetworkIdle(None)];
    var slept := Issue(page, h, waited, plan[1]);
    assert slept == Exec(plan[..2], None);
    assert IssueAll(page, h, waited, plan[1..]) == IssueAll(page, h, slept, plan[2..]);
  }

  /** None of the reads after settling is caught: the first of the modal
      probe, the overlay probe and the markup read that raises is the
      exception `detect` lets out, and the memory is kept. A failing sleep
      is let out the same way. */
  lemma ProbeFailurePropagates(d: StateDetector, page: Page, h: History, hash: string -> string)
    ensures var r := Detect(d, page, h, hash);
      var settled := Stabilize(page, h, d);
      var now := h + StabilizeCalls(d);
      && (settled.error.Some? ==> r.state == Raise(settled.error.value))
      && (settled.error.None? && page.modalProbe(now).Raise? ==>
            r.state == Raise(page.modalProbe(now).message))
      && (settled.error.None? && page.modalProbe(now).Ok? && page.overlayProbe(now).Raise? ==>
            r.state == Raise(page.overlayProbe(now).message))
      && ((settled.error.None? && page.modalProbe(now).Ok? && page.overlayProbe(now).Ok?
           && page.markup(now).Raise?) ==> r.state == Raise(page.markup(now).message))
      && (r.state.Raise? ==> r.detector == d)
  {
  }
}

=== FILE: executor.dfy ===
/** The action executor (`ActionExecutor.perform`).

    One plan step becomes a sequence of browser calls. Each action's calls
    run inside one `try` block together with the trailing `wait_ms` sleep;
    whatever raises ends the block, is caught and logged, and `perform`
    returns normally.
 */
module Executor {
  import opened Basics
  import opened Text
  import opened Selectors
  import opened Browser

  /** A plan step as the planner writes it; every key may be missing. */
  datatype Step = Step(
    description: Option<string>,
    action: Option<string>,
    selector: Option<Selector>,
    input: Option<string>,
    waitMs: Option<int>,
    captureHint: Option<bool>)

  const DefaultWaitMs := 300
  const DefaultScrollDelta := 800
  const DefaultWaitState := "visible"
  const DefaultPressKey := "Enter"

  const GotoTimeoutMs: nat := 30000
  const ScrollIntoViewTimeoutMs: nat := 3000
  const ClickTimeoutMs: nat := 6000
  const ClickIdleTimeoutMs: nat := 6000
  const HoverTimeoutMs: nat := 5000
  const TypeTimeoutMs: nat := 5000
  const TypeDelayMs: nat := 50
  const WaitForTimeoutMs: nat := 10000

  /** `step.get("wait_ms", 300)`. */
  function WaitMs(step: Step): int {
    step.waitMs.GetOr(DefaultWaitMs)
  }

  /** What the executor logs about an action that did not raise. */
  datatype Note = Done | ClickConfirmed | ClickRetried | NotFound | UnknownAction

  /** The calls of one action (before the trailing sleep) and its log note. */
  datatype ActionResult = ActionResult(exec: Exec, note: Note)

  /** The result of `perform`: every call issued, the log note, and the
      message of the exception that was caught, if any. */
  datatype Performed = Performed(issued: seq<Call>, note: Note, caught: Option<string>)

  // ---------------------------------------------------------------------------
  // goto
  // ---------------------------------------------------------------------------

  /** `selector.get("css") if selector else None`, kept only when truthy. */
  function GotoUrl(sel: Option<Selector>): (url: Option<string>)
    ensures url.Some? <==> !Falsy(sel) && Truthy(sel.value.css)
    ensures url.Some? ==> url.value != "" && url.value == sel.value.css.value
  {
    if Falsy(sel) || !Truthy(sel.value.css) then None else sel.value.css
  }

  /** A goto navigates, unchecked, to a truthy css value and is a no-op otherwise. */
  function DoGoto(page: Page, h: History, sel: Option<Selector>): (r: ActionResult)
    ensures GotoUrl(sel).None? ==> r == ActionResult(Start, Done)
    ensures GotoUrl(sel).Some? ==> var c := Navigate(GotoUrl(sel).value, GotoTimeoutMs);
      r.exec.issued == [c] && r.exec.error == ErrorOf(page.reply(h, c)) && r.note == Done
  {
    assert h + Start.issued == h;
    match GotoUrl(sel)
    case None => ActionResult(Start, Done)
    case Some(url) => ActionResult(Issue(page, h, Start, Navigate(url, GotoTimeoutMs)), Done)
  }

  // ---------------------------------------------------------------------------
  // click
  // ---------------------------------------------------------------------------

  /** `len(await page.content())`, or -1 when reading the markup raised. */
  function ContentLength(markup: Outcome<string>): int {
    match markup
    case Ok(m) => |m|
    case Raise(_) => -1
  }

  /** The executor's test that a click visibly did something, as written. */
  predicate ClickTookEffect(preUrl: string, preLen: int, postUrl: string, postLen: int) {
    postUrl != preUrl || (preLen != -1 && postLen != preLen)
  }

  /** Every call a click may issue, in order: scroll, click, wait for network
      idle, then a second scroll and click when the first showed no effect. */
  function ClickPlan(loc: Locator): seq<Call> {
    [ ScrollIntoView(loc, ScrollIntoViewTimeoutMs), Click(loc, ClickTimeoutMs),
      WaitNetworkIdle(Some(ClickIdleTimeoutMs)),
      ScrollIntoView(loc, ScrollIntoViewTimeoutMs), Click(loc, ClickTimeoutMs) ]
  }

  /** When the second click is due: the target has matches, the first click
      returned, and afterwards the URL is the same and the markup length is
      the same or could not be read beforehand. */
  predicate ClickRetryDue(page: Page, h: History, loc: Locator) {
    var plan := ClickPlan(loc);
    var after := h + plan[..3];
    && page.matches(h, loc).Ok? && page.matches(h, loc).value > 0
    && page.reply(h + plan[..1], plan[1]) == Returned
    && page.url(after) == page.url(h)
    && (ContentLength(page.markup(h)) == -1
        || ContentLength(page.markup(after)) == ContentLength(page.markup(h)))
  }

  function DoClick(page: Page, h: History, sel: Option<Selector>): (r: ActionResult)
    ensures r.exec.issued <= ClickPlan(Resolve(sel))
    ensures |r.exec.issued| == 5 <==> ClickRetryDue(page, h, Resolve(sel))
    ensures r.note == ClickRetried <==> |r.exec.issued| == 5
    ensures page.matches(h, Resolve(sel)) == Ok(0) ==> r == ActionResult(Start, NotFound)
    ensures page.matches(h, Resolve(sel)).Raise? ==>
      r.exec == Exec([], Some(page.matches(h, Resolve(sel)).message))
    ensures var plan := ClickPlan(Resolve(sel));
      page.matches(h, Resolve(sel)).Ok? && page.matches(h, Resolve(sel)).value > 0 ==>
      && |r.exec.issued| >= 2
      && (|r.exec.issued| == 2 <==> page.reply(h + plan[..1], plan[1]).Raised?)
      && (|r.exec.issued| == 2 ==> r.exec.error == ErrorOf(page.reply(h + plan[..1], plan[1])))
      && (|r.exec.issued| == 3 ==> r.exec.error.None?)
      && (|r.exec.issued| == 5 ==> r.exec.error == ErrorOf(page.reply(h + plan[..4], plan[4])))
      && (r.exec.error.Some? ==> RaisedByLast(page, h, r.exec) && r.exec.issued[|r.exec.issued| - 1].Click?)
  {
    var loc := Resolve(sel);
    var plan := ClickPlan(loc);
    var preUrl := page.url(h);
    var preLen := ContentLength(page.markup(h));
    match page.matches(h, loc)
    case Raise(m) => ActionResult(Abort(Start, m), Done)
    case Ok(n) =>
      if n == 0 then ActionResult(Start, NotFound)
      else
        var scrolled := Attempt(page, h, Start, plan[0]);
        assert scrolled.issued == plan[..1] && scrolled.error.None?;
        var first := Issue(page, h, scrolled, plan[1]);
        if first.error.Some? then ActionResult(first, Done)
        else
          var settled := Attempt(page, h, first, plan[2]);
          assert settled.issued == plan[..3];
          var postUrl := page.url(h + settled.issued);
          var postLen := ContentLength(page.markup(h + settled.issued));
          if ClickTookEffect(preUrl, preLen, postUrl, postLen) then ActionResult(settled, ClickConfirmed)
          else
            var rescrolled := Attempt(page, h, settled, plan[3]);
            assert rescrolled.issued == plan[..4];
            ActionResult(Issue(page, h, rescrolled, plan[4]), ClickRetried)
  }

  /** Click counts and budgets along the click plan. */
  lemma ClickPlanPrefix(loc: Locator, p: seq<Call>)
    requires p <= ClickPlan(loc)
    ensures CountClicks(p) == (if |p| == 5 then 2 else if |p| >= 2 then 1 else 0)
    ensures TotalBudget(p) <= 2 * ScrollIntoViewTimeoutMs + 2 * ClickTimeoutMs + ClickIdleTimeoutMs
  {
    var plan := ClickPlan(loc);
    assert p == plan[..|p|];
    assert plan[..0] == [];
    assert plan[..1][..0] == [] && plan[..2][..1] == plan[..1] && plan[..3][..2] == plan[..2];
    assert plan[..4][..3] == plan[..3] && plan[..5][..4] == plan[..4];
  }

  // ---------------------------------------------------------------------------
  // hover, type, press, wait_for, scroll
  // ---------------------------------------------------------------------------

  /** A hover looks its target up first and hovers only when it has a match. */
  function DoHover(page: Page, h: History, sel: Option<Selector>): (r: ActionResult)
    ensures r.exec.issued <= [Hover(Resolve(sel), HoverTimeoutMs)]
    ensures page.matches(h, Resolve(sel)).Raise? ==>
      r.exec == Exec([], Some(page.matches(h, Resolve(sel)).message))
    ensures page.matches(h, Resolve(sel)) == Ok(0) ==> r == ActionResult(Start, NotFound)
    ensures |r.exec.issued| == 1 <==> page.matches(h, Resolve(sel)).Ok? && page.matches(h, Resolve(sel)).value > 0
    ensures |r.exec.issued| == 1 ==> r.exec.error == ErrorOf(page.reply(h, Hover(Resolve(sel), HoverTimeoutMs)))
  {
    assert h + Start.issued == h;
    var loc := Resolve(sel);
    match page.matches(h, loc)
    case Raise(m) => ActionResult(Abort(Start, m), Done)
    case Ok(n) =>
      if n == 0 then ActionResult(Start, NotFound)
      else ActionResult(Issue(page, h, Start, Hover(loc, HoverTimeoutMs)), Done)
  }

  /** With a selector: clear the element, then type into it. */
  function TypeCalls(loc: Locator, text: string): seq<Call> {
    [Fill(loc, "", TypeTimeoutMs), TypeInto(loc, text, TypeDelayMs, TypeTimeoutMs)]
  }

  /** Without a selector the text goes to the focused element; with one, the
      target is looked up and, when it has a match, cleared and typed into. */
  function DoType(page: Page, h: History, sel: Option<Selector>, text: string): (r: ActionResult)
    ensures Falsy(sel) ==> var c := KeyboardType(text, TypeDelayMs);
      r.exec.issued == [c] && r.exec.error == ErrorOf(page.reply(h, c)) && r.note == Done
    ensures !Falsy(sel) ==> r.exec.issued <= TypeCalls(Resolve(sel), text)
    ensures !Falsy(sel) && page.matches(h, Resolve(sel)).Raise? ==>
      r.exec == Exec([], Some(page.matches(h, Resolve(sel)).message))
    ensures !Falsy(sel) && page.matches(h, Resolve(sel)) == Ok(0) ==> r == ActionResult(Start, NotFound)
    ensures !Falsy(sel) && page.matches(h, Resolve(sel)).Ok? && page.matches(h, Resolve(sel)).value > 0 ==>
      && |r.exec.issued| >= 1 && Unguarded(page, h, r.exec)
      && (r.exec.error.None? <==> AllReturned(page, h, TypeCalls(Resolve(sel), text)))
      && (r.exec.error.None? ==> r.exec.issued == TypeCalls(Resolve(sel), text))
  {
    assert h + Start.issued == h;
    if Falsy(sel) then ActionResult(Issue(page, h, Start, KeyboardType(text, TypeDelayMs)), Done)
    else
      var loc := Resolve(sel);
      match page.matches(h, loc)
      case Raise(m) => ActionResult(Abort(Start, m), Done)
      case Ok(n) =>
        if n == 0 then ActionResult(Start, NotFound)
        else ActionResult(IssueAll(page, h, Start, TypeCalls(loc, text)), Done)
  }

  /** The key events for a key expression: for "M1+M2+K", press M1 and M2 down
      in order, press K, release M2 then M1; otherwise a single press. */
  function PressCalls(key: string): seq<Call> {
    if '+' in key then
      var parts := SplitOn(key, '+');
      ChordCalls(parts[..|parts| - 1], parts[|parts| - 1])
    else [KeyPress(key)]
  }

  /** Modifiers down in order, the final key pressed, modifiers up in reverse. */
  function ChordCalls(mods: seq<string>, final: string): seq<Call> {
    seq(|mods|, k requires 0 <= k < |mods| => KeyDown(mods[k]))
      + [KeyPress(final)]
      + seq(|mods|, k requires 0 <= k < |mods| => KeyUp(mods[|mods| - 1 - k]))
  }

  /** A press issues the key events in order until one raises. */
  function DoPress(page: Page, h: History, key: string): (r: ActionResult)
    ensures r.exec.issued <= PressCalls(key) && |r.exec.issued| >= 1
    ensures r.exec.error.None? ==> r.exec.issued == PressCalls(key)
    ensures r.exec.error.Some? ==> RaisedByLast(page, h, r.exec)
    ensures Unguarded(page, h, r.exec)
    ensures r.exec.error.None? <==> AllReturned(page, h, PressCalls(key))
  {
    assert h + Start.issued == h;
    ActionResult(IssueAll(page, h, Start, PressCalls(key)), Done)
  }

  /** A wait_for issues one wait for the resolved target, whose failure is the block's. */
  function DoWaitFor(page: Page, h: History, sel: Option<Selector>, state: string): (r: ActionResult)
    ensures var c := WaitForState(Resolve(sel), state, WaitForTimeoutMs);
      r.exec.issued == [c] && r.exec.error == ErrorOf(page.reply(h, c))
  {
    assert h + Start.issued == h;
    ActionResult(Issue(page, h, Start, WaitForState(Resolve(sel), state, WaitForTimeoutMs)), Done)
  }

  /** `int(step.get("input", 800))`: the default when the key is missing, a
      `ValueError` when the text is not a numeral. */
  function ScrollDelta(input: Option<string>): (y: Outcome<int>)
    ensures input.None? ==> y == Ok(DefaultScrollDelta)
    ensures input.Some? ==> (y.Ok? <==> Numeral(Strip(input.value)))
    ensures input.Some? && y.Ok? ==> y.value == NumeralValue(Strip(input.value))
  {
    match input
    case None => Ok(DefaultScrollDelta)
    case Some(s) =>
      match ParseInt(s)
      case Some(y) => Ok(y)
      case None => Raise("invalid literal for int() with base 10")
  }

  /** `int(str(n))` scrolls by `n`. */
  lemma ScrollDeltaOfInt(n: int)
    ensures ScrollDelta(Some(IntToDecimal(n))) == Ok(n)
  {
    ParseIntRoundTrip(n);
  }

  /** A scroll wheels by the parsed amount; an input that is not a numeral
      raises before anything is issued. */
  function DoScroll(page: Page, h: History, input: Option<string>): (r: ActionResult)
    ensures ScrollDelta(input).Raise? ==> r.exec == Exec([], Some(ScrollDelta(input).message))
    ensures ScrollDelta(input).Ok? ==> var c := Wheel(0, ScrollDelta(input).value);
      r.exec.issued == [c] && r.exec.error == ErrorOf(page.reply(h, c))
  {
    assert h + Start.issued == h;
    match ScrollDelta(input)
    case Raise(m) => ActionResult(Abort(Start, m), Done)
    case Ok(y) => ActionResult(Issue(page, h, Start, Wheel(0, y)), Done)
  }

  // ---------------------------------------------------------------------------
  // perform
  // ---------------------------------------------------------------------------

  /** The actions `perform` knows. */
  const Actions := ["goto", "click", "hover", "type", "press", "wait_for", "scroll"]

  /** The body of the `try` block up to the trailing sleep. No action issues
      a sleep of its own, and only an unknown or missing action is noted as
      such. */
  function Act(page: Page, h: History, step: Step): (r: ActionResult)
    ensures SleepFree(r.exec.issued)
    ensures r.note == UnknownAction <==> step.action.None? || step.action.value !in Actions
  {
    var sel := step.selector;
    match step.action
    case Some(a) =>
      if a == "goto" then DoGoto(page, h, sel)
      else if a == "click" then ClickSleepFree(page, h, sel); DoClick(page, h, sel)
      else if a == "hover" then DoHover(page, h, sel)
      else if a == "type" then TypeSleepFree(page, h, sel, step.input.GetOr("")); DoType(page, h, sel, step.input.GetOr(""))
      else if a == "press" then
        PressSleepFree(page, h, step.input.GetOr(DefaultPressKey));
        DoPress(page, h, step.input.GetOr(DefaultPressKey))
      else if a == "wait_for" then DoWaitFor(page, h, sel, step.input.GetOr(DefaultWaitState))
      else if a == "scroll" then DoScroll(page, h, step.input)
      else ActionResult(Start, UnknownAction)
    case None => ActionResult(Start, UnknownAction)
  }

  /** `ActionExecutor.perform`: the action's calls, then the trailing sleep
      exactly when the action raised nothing. */
  function Perform(page: Page, h: History, step: Step): (r: Performed)
    ensures r.note == Act(page, h, step).note
    ensures Act(page, h, step).exec.issued <= r.issued
    ensures SleepFree(r.issued) <==> Act(page, h, step).exec.error.Some?
    ensures r.caught.None? ==> !SleepFree(r.issued)
    ensures !SleepFree(r.issued) ==>
      r.issued[|r.issued| - 1] == Sleep(WaitMs(step)) && SleepFree(r.issued[..|r.issued| - 1])
    ensures var a := Act(page, h, step);
      && (a.exec.error.None? ==> r.issued == a.exec.issued + [Sleep(WaitMs(step))])
      && (a.exec.error.None? ==> r.caught == ErrorOf(page.reply(h + a.exec.issued, Sleep(WaitMs(step)))))
      && (a.exec.error.Some? ==> r.issued == a.exec.issued && r.caught == a.exec.error)
  {
    var a := Act(page, h, step);
    var e := Issue(page, h, a.exec, Sleep(WaitMs(step)));
    assert a.exec.error.None? ==> e.issued[..|e.issued| - 1] == a.exec.issued && e.issued[|e.issued| - 1].Sleep?;
    Performed(e.issued, a.note, e.error)
  }

  // ---------------------------------------------------------------------------
  // Properties of perform
  // ---------------------------------------------------------------------------

  predicate SleepFree(cs: seq<Call>) {
    forall k :: 0 <= k < |cs| ==> !cs[k].Sleep?
  }

  lemma ClickSleepFree(page: Page, h: History, sel: Option<Selector>)
    ensures SleepFree(DoClick(page, h, sel).exec.issued)
  {
    var plan := ClickPlan(Resolve(sel));
    assert SleepFree(plan);
    SleepFreePrefix(DoClick(page, h, sel).exec.issued, plan);
  }

  lemma TypeSleepFree(page: Page, h: History, sel: Option<Selector>, text: string)
    ensures SleepFree(DoType(page, h, sel, text).exec.issued)
  {
    if !Falsy(sel) {
      var calls := TypeCalls(Resolve(sel), text);
      assert SleepFree(calls);
      SleepFreePrefix(DoType(page, h, sel, text).exec.issued, calls);
    }
  }

  lemma PressSleepFree(page: Page, h: History, key: string)
    ensures SleepFree(DoPress(page, h, key).exec.issued)
  {
    PressCallsSleepFree(key);
    SleepFreePrefix(DoPress(page, h, key).exec.issued, PressCalls(key));
  }

  lemma PressCallsSleepFree(key: string)
    ensures SleepFree(PressCalls(key))
  {
  }

  lemma SleepFreePrefix(a: seq<Call>, b: seq<Call>)
    requires a <= b && SleepFree(b)
    ensures SleepFree(a)
  {
    assert forall k :: 0 <= k < |a| ==> a[k] == b[k];
  }

  /** `perform` never raises: an exception in the action is caught and then
      the trailing `wait_ms` sleep is skipped, since it sits inside the same
      `try`; without one the sleep is the last call. */
  lemma PerformCatchesAll(page: Page, h: History, step: Step)
    ensures var a := Act(page, h, step);
      a.exec.error.Some? ==> Perform(page, h, step).caught == a.exec.error
    ensures Act(page, h, step).exec.error.Some? ==> SleepFree(Perform(page, h, step).issued)
    ensures Act(page, h, step).exec.error.None? ==>
      Perform(page, h, step).issued == Act(page, h, step).exec.issued + [Sleep(WaitMs(step))]
    ensures var r := Perform(page, h, step);
      r.caught.None? ==>
        (|r.issued| > 0 && r.issued[|r.issued| - 1] == Sleep(WaitMs(step))
         && SleepFree(r.issued[..|r.issued| - 1]))
  {
    var a := Act(page, h, step);
    var r := Perform(page, h, step);
    if a.exec.error.None? {
      assert r.issued[..|r.issued| - 1] == a.exec.issued;
    }
  }

  lemma CountClicksAppendSleep(cs: seq<Call>, ms: int)
    ensures CountClicks(cs + [Sleep(ms)]) == CountClicks(cs)
    ensures TotalBudget(cs + [Sleep(ms)]) == TotalBudget(cs) + (if ms < 0 then 0 else ms)
  {
    assert (cs + [Sleep(ms)])[..|cs|] == cs;
  }

  /** A click is attempted at most twice; the second attempt happens exactly
      when the retry condition holds, and its outcome is not checked. The
      whole click stays within 24 s of timeouts plus the trailing sleep. */
  lemma PerformClick(page: Page, h: History, step: Step)
    requires step.action == Some("click")
    ensures var r := Perform(page, h, step);
      && CountClicks(r.issued) <= 2
      && (CountClicks(r.issued) == 2 <==> ClickRetryDue(page, h, Resolve(step.selector)))
      && TotalBudget(r.issued) <= 24000 + (if WaitMs(step) < 0 then 0 else WaitMs(step))
    ensures var r := Perform(page, h, step);
      ClickRetryDue(page, h, Resolve(step.selector)) ==> r.note == ClickRetried
  {
    var r := Perform(page, h, step);
    var a := DoClick(page, h, step.selector);
    assert Act(page, h, step) == a;
    ClickPlanPrefix(Resolve(step.selector), a.exec.issued);
    if a.exec.error.None? {
      assert r.issued == a.exec.issued + [Sleep(WaitMs(step))];
      CountClicksAppendSleep(a.exec.issued, WaitMs(step));
    } else {
      assert r.issued == a.exec.issued;
    }
  }

  /** A click, hover or selector-targeted type whose target has no match
      issues no element action: only the trailing sleep, with a warning. */
  lemma PerformZeroMatches(page: Page, h: History, step: Step)
    requires step.action == Some("click") || step.action == Some("hover")
      || (step.action == Some("type") && !Falsy(step.selector))
    requires page.matches(h, Resolve(step.selector)) == Ok(0)
    ensures Perform(page, h, step).issued == [Sleep(WaitMs(step))]
    ensures Perform(page, h, step).note == NotFound
  {
  }

  /** Hover and type act only on a target that has a match, and a selector-
      targeted type clears the field before typing. */
  lemma PerformHoverType(page: Page, h: History, step: Step, n: nat)
    requires step.action == Some("hover") || (step.action == Some("type") && !Falsy(step.selector))
    requires page.matches(h, Resolve(step.selector)) == Ok(n) && n > 0
    ensures var r := Perform(page, h, step);
      var loc := Resolve(step.selector);
      var calls := if step.action == Some("hover") then [Hover(loc, HoverTimeoutMs)]
                   else TypeCalls(loc, step.input.GetOr(""));
      && r.issued <= calls + [Sleep(WaitMs(step))]
      && (r.caught.None? ==> r.issued == calls + [Sleep(WaitMs(step))])
  {
    var loc := Resolve(step.selector);
    if step.action == Some("type") {
      var a := DoType(page, h, step.selector, step.input.GetOr(""));
      var calls := TypeCalls(loc, step.input.GetOr(""));
      assert a.exec.issued == calls[..|a.exec.issued|];
    }
  }

  /** A type step without a selector (missing or `{}`) sends the keystrokes to
      whatever element has focus, without looking any element up. */
  lemma PerformTypeFocused(page: Page, h: History, step: Step)
    requires step.action == Some("type") && Falsy(step.selector)
    ensures var r := Perform(page, h, step);
      r.issued <= [KeyboardType(step.input.GetOr(""), TypeDelayMs), Sleep(WaitMs(step))]
      && |r.issued| >= 1
  {
  }

  /** A press issues the key events of its key expression (default "Enter")
      and then the sleep, as one unguarded run: it stops at the first of
      them that raises, and that exception is the one caught. */
  lemma PerformPress(page: Page, h: History, step: Step)
    requires step.action == Some("press")
    ensures var r := Perform(page, h, step);
      var calls := PressCalls(step.input.GetOr(DefaultPressKey)) + [Sleep(WaitMs(step))];
      && r.issued <= calls
      && Unguarded(page, h, Exec(r.issued, r.caught))
      && (r.caught.None? <==> AllReturned(page, h, calls))
      && (r.caught.None? ==> r.issued == calls)
  {
    var keys := PressCalls(step.input.GetOr(DefaultPressKey));
    var a := DoPress(page, h, step.input.GetOr(DefaultPressKey));
    assert Act(page, h, step) == a;
    PerformUnguarded(page, h, step);
    AllReturnedSnoc(page, h, keys, Sleep(WaitMs(step)));
  }

  /** When the action's calls ran unguarded, so did they together with the
      trailing sleep: `perform` catches the first exception of the whole run. */
  lemma PerformUnguarded(page: Page, h: History, step: Step)
    requires Unguarded(page, h, Act(page, h, step).exec)
    ensures var a, r := Act(page, h, step), Perform(page, h, step);
      && Unguarded(page, h, Exec(r.issued, r.caught))
      && (r.caught.None? <==> a.exec.error.None? && page.reply(h + a.exec.issued, Sleep(WaitMs(step))) == Returned)
  {
    var a, r := Act(page, h, step), Perform(page, h, step);
    if a.exec.error.None? {
      IssueOne(page, h, a.exec, Sleep(WaitMs(step)));
      assert Exec(r.issued, r.caught) == Issue(page, h, a.exec, Sleep(WaitMs(step)));
    } else {
      assert Exec(r.issued, r.caught) == a.exec;
    }
  }

  /** The layout of a chord: each modifier goes down in listed order, the
      final key is pressed, and the modifiers come up in reverse order. */
  lemma ChordLayout(mods: seq<string>, final: string)
    ensures var calls := ChordCalls(mods, final);
      && |calls| == 2 * |mods| + 1
      && (forall k :: 0 <= k < |mods| ==> calls[k] == KeyDown(mods[k]))
      && calls[|mods|] == KeyPress(final)
      && (forall k :: |mods| < k < |calls| ==> calls[k] == KeyUp(mods[2 * |mods| - k]))
  {
  }

  /** For a key expression with '+', the modifiers are the '+'-separated parts
      but the last, one per '+', and the final key is the last part; joining
      them back with '+' gives the expression, so nothing is lost. */
  lemma PressChord(key: string)
    requires '+' in key
    ensures var parts := SplitOn(key, '+');
      var mods := parts[..|parts| - 1];
      && PressCalls(key) == ChordCalls(mods, parts[|parts| - 1])
      && |mods| == CountChar(key, '+') && |mods| >= 1
      && '+' !in parts[|parts| - 1]
      && JoinWith(mods + [parts[|parts| - 1]], '+') == key
  {
    var parts := SplitOn(key, '+');
    assert PressCalls(key) == ChordCalls(parts[..|parts| - 1], parts[|parts| - 1]);
    ChordParts(key);
  }

  /** The parts of a chord: one modifier per '+', then the final key. */
  lemma ChordParts(key: string)
    requires '+' in key
    ensures var parts := SplitOn(key, '+');
      && |parts| - 1 == CountChar(key, '+') && |parts| >= 2
      && JoinWith(parts[..|parts| - 1] + [parts[|parts| - 1]], '+') == key
  {
    var parts := SplitOn(key, '+');
    JoinSplit(key, '+');
    CountPositive(key, '+');
    assert parts[..|parts| - 1] + [parts[|parts| - 1]] == parts;
  }

  lemma {:induction false} CountPositive(s: string, c: char)
    requires c in s
    ensures CountChar(s, c) > 0
    decreases |s|
  {
    if s[0] != c {
      assert c in s[1..];
      CountPositive(s[1..], c);
    }
  }

  /** Without '+' a key expression is a single press. */
  lemma PressSingle(key: string)
    requires '+' !in key
    ensures PressCalls(key) == [KeyPress(key)]
  {
  }

  /** Splitting a chord written from its parts gives back those parts. */
  lemma PressOfParts(mods: seq<string>, final: string)
    requires |mods| >= 1 && '+' !in final
    requires forall k :: 0 <= k < |mods| ==> '+' !in mods[k]
    ensures PressCalls(JoinWith(mods + [final], '+')) == ChordCalls(mods, final)
  {
    var parts := mods + [final];
    var key := JoinWith(parts, '+');
    SplitJoin(parts, '+');
    assert parts[..|parts| - 1] == mods;
    assert '+' in key by {
      assert key == parts[0] + ['+'] + JoinWith(parts[1..], '+');
      assert key[|parts[0]|] == '+';
    }
  }

  /** A two-modifier chord such as "Control+Shift+K": both modifiers down
      in order, the key pressed, the modifiers up in reverse order. */
  lemma PressTwoModifiers(m1: string, m2: string, k: string)
    requires '+' !in m1 && '+' !in m2 && '+' !in k
    ensures PressCalls(m1 + "+" + m2 + "+" + k)
      == [KeyDown(m1), KeyDown(m2), KeyPress(k), KeyUp(m2), KeyUp(m1)]
  {
    var mods := [m1, m2];
    var parts := mods + [k];
    assert parts[1..][1..] == [k];
    assert JoinWith(parts[1..], '+') == m2 + "+" + k;
    assert JoinWith(parts, '+') == m1 + "+" + (m2 + "+" + k);
    assert m1 + "+" + (m2 + "+" + k) == m1 + "+" + m2 + "+" + k;
    PressOfParts(mods, k);
    ChordLayout(mods, k);
  }

  /** Defaults: sleep 300 ms, scroll by 800 px, wait for "visible", press "Enter". */
  lemma PerformDefaults(page: Page, h: History, step: Step)
    ensures step.waitMs.None? && Perform(page, h, step).caught.None? ==>
      var r := Perform(page, h, step); r.issued[|r.issued| - 1] == Sleep(300)
    ensures step.action == Some("scroll") && step.input.None? ==>
      Perform(page, h, step).issued[0] == Wheel(0, 800)
    ensures step.action == Some("wait_for") && step.input.None? ==>
      Perform(page, h, step).issued[0] == WaitForState(Resolve(step.selector), "visible", WaitForTimeoutMs)
    ensures step.action == Some("press") && step.input.None? ==>
      Perform(page, h, step).issued[0] == KeyPress("Enter")
  {
    var a := Act(page, h, step);
    if step.action == Some("scroll") && step.input.None? {
      assert a == DoScroll(page, h, None);
    } else if step.action == Some("wait_for") && step.input.None? {
      assert a == DoWaitFor(page, h, step.selector, DefaultWaitState);
    } else if step.action == Some("press") && step.input.None? {
      assert '+' !in DefaultPressKey;
      assert a == DoPress(page, h, DefaultPressKey);
    }
  }

  /** `wait_for` waits 10 s for the resolved target in the state its input
      names, "visible" when it has none; a raising wait is caught with the
      sleep skipped, and otherwise the sleep follows. */
  lemma PerformWaitFor(page: Page, h: History, step: Step)
    requires step.action == Some("wait_for")
    ensures var c := WaitForState(Resolve(step.selector), step.input.GetOr("visible"), WaitForTimeoutMs);
      var r := Perform(page, h, step);
      && r.issued[0] == c
      && (page.reply(h, c).Raised? ==> r.issued == [c] && r.caught == Some(page.reply(h, c).message))
      && (page.reply(h, c) == Returned ==>
            r.issued == [c, Sleep(WaitMs(step))] && r.caught == ErrorOf(page.reply(h + [c], Sleep(WaitMs(step)))))
  {
    var c := WaitForState(Resolve(step.selector), step.input.GetOr("visible"), WaitForTimeoutMs);
    assert Act(page, h, step) == DoWaitFor(page, h, step.selector, step.input.GetOr(DefaultWaitState));
    PerformOneCall(page, h, step, c);
  }

  /** An action of one unguarded call `c`: a raising `c` is caught and the
      sleep skipped; otherwise the sleep follows and its exception, if any,
      is the one caught. */
  lemma PerformOneCall(page: Page, h: History, step: Step, c: Call)
    requires Act(page, h, step).exec.issued == [c]
    requires Act(page, h, step).exec.error == ErrorOf(page.reply(h, c))
    ensures var r := Perform(page, h, step);
      && r.issued[0] == c
      && (page.reply(h, c).Raised? ==> r.issued == [c] && r.caught == Some(page.reply(h, c).message))
      && (page.reply(h, c) == Returned ==>
            r.issued == [c, Sleep(WaitMs(step))] && r.caught == ErrorOf(page.reply(h + [c], Sleep(WaitMs(step)))))
  {
  }

  /** An unknown or missing action does nothing but the trailing sleep. */
  lemma PerformUnknown(page: Page, h: History, step: Step)
    requires step.action.None? || step.action.value !in Actions
    ensures Perform(page, h, step).issued == [Sleep(WaitMs(step))]
    ensures Perform(page, h, step).note == UnknownAction
  {
  }

  /** A scroll whose input is not a numeral raises inside the block: nothing
      is issued, not even the trailing sleep. */
  lemma PerformScrollBadInput(page: Page, h: History, step: Step)
    requires step.action == Some("scroll") && step.input.Some? && ParseInt(step.input.value).None?
    ensures Perform(page, h, step).issued == []
    ensures Perform(page, h, step).caught.Some?
  {
  }

  /** A goto navigates to the selector's css value, unchecked, when it is
      truthy; otherwise it is a no-op. */
  lemma PerformGoto(page: Page, h: History, step: Step)
    requires step.action == Some("goto")
    ensures var r := Perform(page, h, step);
      match GotoUrl(step.selector)
      case Some(url) => r.issued[0] == Navigate(url, GotoTimeoutMs)
      case None => r.issued == [Sleep(WaitMs(step))]
  {
  }
}

=== FILE: planner.dfy ===
/** The step planner (`AIClient`).

    A plan is asked of a language model when a provider is configured; its
    reply is unwrapped from a markdown code fence, decoded as JSON and kept
    only if it is an object with a non-empty "steps" list. In every other
    case a keyword-driven heuristic plan is used instead. The model's reply
    and the JSON decoder are parameters: the model sees only what they
    return.
 */
module Planner {
  import opened Basics
  import opened Text
  import opened Selectors
  import opened Executor

  // ---------------------------------------------------------------------------
  // Provider selection
  // ---------------------------------------------------------------------------

  datatype Provider = Anthropic | OpenAI

  /** `AIClient.__init__`: the Anthropic key wins over the OpenAI key; a
      client that fails to initialise leaves no provider at all, without
      trying the other one. `anthropicInit`/`openaiInit` say whether the
      client library imported and constructed without raising. */
  function SelectProvider(anthropicKey: Option<string>, openaiKey: Option<string>,
                          anthropicInit: bool, openaiInit: bool): (p: Option<Provider>)
    ensures p == Some(Anthropic) <==> Truthy(anthropicKey) && anthropicInit
    ensures p == Some(OpenAI) <==> !Truthy(anthropicKey) && Truthy(openaiKey) && openaiInit
    ensures Truthy(anthropicKey) && !anthropicInit ==> p.None?
  {
    if Truthy(anthropicKey) then (if anthropicInit then Some(Anthropic) else None)
    else if Truthy(openaiKey) then (if openaiInit then Some(OpenAI) else None)
    else None
  }

  // ---------------------------------------------------------------------------
  // The heuristic plan
  // ---------------------------------------------------------------------------

  /** A heuristic step: every one of them carries a capture hint. */
  function HintedStep(description: string, action: string, selector: Option<Selector>,
                      input: Option<string>, waitMs: int): Step {
    Step(Some(description), Some(action), selector, input, Some(waitMs), Some(true))
  }

  function NavigateStep(app: string, url: string): Step {
    HintedStep("Navigate to " + app + " workspace", "goto", Some(CssSelector(url)), None, 2000)
  }

  const SettleStep := HintedStep("Wait for page to stabilize", "scroll", None, Some("0"), 1500)
  const NewPageLookStep := HintedStep("Look for New page button", "click", Some(TextSelector("New page")), None, 1200)
  const TableStep := HintedStep("Click Table/Database option", "click", Some(TextSelector("Table")), None, 1000)
  const NewPageStep := HintedStep("Click New page", "click", Some(TextSelector("New page")), None, 1200)
  const FilterButtonStep :=
    HintedStep("Look for filter button", "click", Some(RolePatternSelector("button", "filter|Filter")), None, 1000)
  const FilterSettleStep := HintedStep("Wait for filter UI", "scroll", None, Some("0"), 800)
  const FinalStep := HintedStep("Final state capture", "scroll", None, Some("0"), 500)

  /** The task mentions creating something. */
  predicate CreateIntent(lower: string) {
    Contains(lower, "create") || Contains(lower, "new")
  }

  /** The steps the creation keywords add. */
  function CreationSteps(lower: string): (steps: seq<Step>)
    ensures |steps| <= 2
    ensures |steps| == 2 <==> CreateIntent(lower) && Contains(lower, "database")
    ensures |steps| == 1 <==> CreateIntent(lower) && !Contains(lower, "database") && Contains(lower, "page")
  {
    if CreateIntent(lower) then
      if Contains(lower, "database") then [NewPageLookStep, TableStep]
      else if Contains(lower, "page") then [NewPageStep]
      else []
    else []
  }

  /** The steps the "filter" keyword adds. */
  function FilterSteps(lower: string): (steps: seq<Step>)
    ensures |steps| == if Contains(lower, "filter") then 2 else 0
  {
    if Contains(lower, "filter") then [FilterButtonStep, FilterSettleStep] else []
  }

  /** `AIClient._heuristic_plan`. */
  function HeuristicPlan(app: string, task: string, url: string): (steps: seq<Step>)
    ensures 3 <= |steps| <= 7
    ensures steps[0] == NavigateStep(app, url) && steps[1] == SettleStep
    ensures steps[|steps| - 1] == FinalStep
    ensures forall k :: 0 <= k < |steps| ==> steps[k].captureHint == Some(true)
  {
    var lower := Lower(task);
    [NavigateStep(app, url), SettleStep] + CreationSteps(lower) + FilterSteps(lower) + [FinalStep]
  }

  /** The keyword rules, stated as: which optional steps appear, in terms of
      the lowercased task. */
  lemma HeuristicKeywords(app: string, task: string, url: string)
    ensures var steps := HeuristicPlan(app, task, url);
      var lower := Lower(task);
      && (FilterButtonStep in steps <==> Contains(lower, "filter"))
      && (TableStep in steps <==> CreateIntent(lower) && Contains(lower, "database"))
      && (NewPageStep in steps <==> CreateIntent(lower) && !Contains(lower, "database") && Contains(lower, "page"))
      && (|steps| == 3 + |CreationSteps(lower)| + |FilterSteps(lower)|)
  {
    var steps := HeuristicPlan(app, task, url);
    var lower := Lower(task);
    var opening := [NavigateStep(app, url), SettleStep];
    assert steps == opening + CreationSteps(lower) + FilterSteps(lower) + [FinalStep];
    assert FilterButtonStep !in opening && TableStep !in opening && NewPageStep !in opening;
    assert FilterButtonStep in steps <==> FilterButtonStep in FilterSteps(lower);
    assert TableStep in steps <==> TableStep in CreationSteps(lower);
    assert NewPageStep in steps <==> NewPageStep in CreationSteps(lower);
  }

  /** The steps a heuristic plan is made of. */
  predicate HeuristicStep(app: string, url: string, s: Step) {
    s == NavigateStep(app, url) ||
    s in {SettleStep, NewPageLookStep, TableStep, NewPageStep, FilterButtonStep, FilterSettleStep, FinalStep}
  }

  /** Every step of the heuristic plan is one of the fixed steps above. */
  lemma HeuristicStepsKnown(app: string, task: string, url: string)
    ensures var steps := HeuristicPlan(app, task, url);
      forall k :: 0 <= k < |steps| ==> HeuristicStep(app, url, steps[k])
  {
    var steps := HeuristicPlan(app, task, url);
    var lower := Lower(task);
    var creation, filter := CreationSteps(lower), FilterSteps(lower);
    assert steps == [NavigateStep(app, url), SettleStep] + creation + filter + [FinalStep];
    forall k | 0 <= k < |steps|
      ensures HeuristicStep(app, url, steps[k])
    {
      if k < 2 {
      } else if k < 2 + |creation| {
        assert steps[k] == creation[k - 2];
      } else if k < 2 + |creation| + |filter| {
        assert steps[k] == filter[k - 2 - |creation|];
      } else {
        assert steps[k] == FinalStep;
      }
    }
  }

  /** The heuristic plan, performed: the first step navigates to the start
      URL (when there is one), every scroll step scrolls by zero, and no
      click falls back to the page body. */
  lemma HeuristicSteps(app: string, task: string, url: string)
    ensures var steps := HeuristicPlan(app, task, url);
      && GotoUrl(steps[0].selector) == (if url == "" then None else Some(url))
      && (forall k :: 0 <= k < |steps| && steps[k].action == Some("scroll") ==>
            steps[k].input == Some("0") && ScrollDelta(steps[k].input) == Ok(0))
      && (forall k :: 0 <= k < |steps| && steps[k].action == Some("click") ==>
            Resolve(steps[k].selector) != Body)
  {
    HeuristicStepsKnown(app, task, url);
    ScrollByZero();
  }

  /** The heuristic plan's scroll input "0" scrolls by zero. */
  lemma ScrollByZero()
    ensures ScrollDelta(Some("0")) == Ok(0)
  {
    var zero := "0";
    assert AllDigits(zero) && DecimalValue(zero) == 0;
    ParseUnsigned(zero);
  }

  // ---------------------------------------------------------------------------
  // Unwrapping a fenced reply
  // ---------------------------------------------------------------------------

  const Fence := "```"
  const JsonFence := "```json"

  /** Python's `s.split(sep)[1]` for an `s` that contains `sep`. */
  function SecondPart(s: string, sep: string): string {
    Before(After(s, sep), sep)
  }

  /** The fence extraction in `AIClient.plan`: the text after "```json" up
      to the next fence, else the text between the first two fences, then
      stripped; a reply without a fence is kept as it is. */
  function StripFences(content: string): (r: string)
    ensures !Contains(content, Fence) ==> r == content
    ensures Contains(content, Fence) ==> !Contains(r, Fence)
  {
    assert JsonFence == Fence + "json";
    ContainsPrefix(content, Fence, "json");
    if Contains(content, JsonFence) then
      var part := SecondPart(content, JsonFence);
      BeforeHasNoSeparator(part, Fence);
      StripKeepsAbsence(Before(part, Fence), Fence);
      Strip(Before(part, Fence))
    else if Contains(content, Fence) then
      var part := SecondPart(content, Fence);
      BeforeHasNoSeparator(part, Fence);
      StripKeepsAbsence(Before(part, Fence), Fence);
      Strip(Before(part, Fence))
    else content
  }

  /** An occurrence of a pattern is an occurrence of each of its prefixes. */
  lemma ContainsPrefix(s: string, p: string, q: string)
    ensures Contains(s, p + q) ==> Contains(s, p)
  {
    if Contains(s, p + q) {
      var j := IndexOf(s, p + q).value;
      assert s[j..j + |p|] == (p + q)[..|p|];
      assert OccursAt(s, p, j);
      ContainsIff(s, p);
    }
  }

  /** Unwrapping twice is unwrapping once. */
  lemma StripFencesIdempotent(content: string)
    ensures StripFences(StripFences(content)) == StripFences(content)
  {
  }

  /** The first occurrence is at `k` when the pattern occurs there and nowhere before. */
  lemma IndexOfAt(s: string, pat: string, k: nat)
    requires OccursAt(s, pat, k)
    requires forall j :: 0 <= j < k ==> !OccursAt(s, pat, j)
    ensures IndexOf(s, pat) == Some(k)
  {
  }

  /** After a fence-free `pre` not ending in a backtick, the first fence is
      the one right after it, whatever follows. */
  lemma FenceFirstAt(pre: string, rest: string)
    requires !Contains(pre, Fence)
    requires |pre| == 0 || pre[|pre| - 1] != '`'
    ensures IndexOf(pre + Fence + rest, Fence) == Some(|pre|)
    ensures Before(pre + Fence + rest, Fence) == pre && After(pre + Fence + rest, Fence) == rest
  {
    var s := pre + Fence + rest;
    ContainsIff(pre, Fence);
    forall j | 0 <= j < |pre|
      ensures !OccursAt(s, Fence, j)
    {
      if j + 3 <= |pre| {
        assert s[j..j + 3] == pre[j..j + 3];
        assert !OccursAt(pre, Fence, j);
      } else if j + 3 <= |s| {
        assert s[j..j + 3][|pre| - 1 - j] == pre[|pre| - 1];
      }
    }
    assert s[|pre|..|pre| + 3] == Fence;
    IndexOfAt(s, Fence, |pre|);
    assert s[..|pre|] == pre && s[|pre| + 3..] == rest;
  }

  /** After a `pre` without "```json", the first "```json" is the one right
      after it: one starting earlier would meet a backtick of it where its
      own letters are. */
  lemma JsonFenceFirstAt(pre: string, rest: string)
    requires !Contains(pre, JsonFence)
    ensures IndexOf(pre + JsonFence + rest, JsonFence) == Some(|pre|)
    ensures After(pre + JsonFence + rest, JsonFence) == rest
  {
    var s := pre + JsonFence + rest;
    ContainsIff(pre, JsonFence);
    forall j | 0 <= j < |pre|
      ensures !OccursAt(s, JsonFence, j)
    {
      if j + 7 <= |pre| {
        assert s[j..j + 7] == pre[j..j + 7];
        assert !OccursAt(pre, JsonFence, j);
      } else if j + 7 <= |s| {
        var o := |pre| - j;
        if o <= 3 {
          assert s[j..j + 7][3] == s[j + 3] == '`';
        } else {
          assert s[j..j + 7][o] == s[|pre|] == '`';
        }
      }
    }
    assert s[|pre|..|pre| + 7] == JsonFence;
    IndexOfAt(s, JsonFence, |pre|);
    assert s[|pre| + 7..] == rest;
  }

  /** The two fenced branches of `StripFences`, one fact each. */
  lemma StripFencesBranch(content: string)
    ensures Contains(content, JsonFence) ==>
      StripFences(content) == Strip(Before(SecondPart(content, JsonFence), Fence))
    ensures !Contains(content, JsonFence) && Contains(content, Fence) ==>
      StripFences(content) == Strip(Before(SecondPart(content, Fence), Fence))
  {
  }

  /** Cutting `body + Fence + post` at its first "```json" and then at its
      first fence leaves `body`: a "```json" cannot start inside the body,
      nor overlap the closing fence unless `post` begins with a backtick. */
  lemma JsonPartBeforeFence(body: string, post: string)
    requires !Contains(body, Fence)
    requires |body| == 0 || body[|body| - 1] != '`'
    requires |post| == 0 || post[0] != '`'
    ensures Before(Before(body + Fence + post, JsonFence), Fence) == body
  {
    var rest := body + Fence + post;
    JsonFenceInRest(body, post);
    if IndexOf(rest, JsonFence) == Some(|body|) {
      assert Before(rest, JsonFence) == body;
      NoFenceBeforeItself(body);
    } else if IndexOf(rest, JsonFence).Some? {
      var x := rest[..IndexOf(rest, JsonFence).value];
      assert x == body + Fence + x[|body| + 3..];
      FenceFirstAt(body, x[|body| + 3..]);
    } else {
      FenceFirstAt(body, post);
    }
  }

  /** In `body + Fence + post`, a "```json" starts at the closing fence or
      wholly after it: its own fence cannot start inside the body, nor
      inside the closing fence unless `post` begins with a backtick. */
  lemma JsonFenceInRest(body: string, post: string)
    requires !Contains(body, Fence)
    requires |body| == 0 || body[|body| - 1] != '`'
    requires |post| == 0 || post[0] != '`'
    ensures var i := IndexOf(body + Fence + post, JsonFence);
      i.None? || i.value == |body| || i.value >= |body| + 3
  {
    var rest := body + Fence + post;
    FenceFirstAt(body, post);
    assert |post| > 0 ==> rest[|body| + 3] == post[0];
    if IndexOf(rest, JsonFence).Some? {
      var i := IndexOf(rest, JsonFence).value;
      assert OccursAt(rest, JsonFence, i);
      assert rest[i..i + 3] == rest[i..i + 7][..3] == Fence;
      assert OccursAt(rest, Fence, i);
      assert |body| <= i;
      if |body| < i < |body| + 3 {
        FenceChars(rest, i, |body| + 3);
        assert false;
      }
    }
  }

  /** Every character of a fence occurrence is a backtick. */
  lemma FenceChars(s: string, i: int, k: int)
    requires OccursAt(s, Fence, i) && i <= k < i + 3
    ensures s[k] == '`'
  {
    assert s[k] == s[i..i + 3][k - i];
  }

  /** The "```json" branch: the text from the first "```json" to the next
      fence comes back stripped, whatever precedes it, and whatever follows
      that fence unless it starts with a backtick. */
  lemma StripFencesJson(pre: string, body: string, post: string)
    requires !Contains(pre, JsonFence)
    requires !Contains(body, Fence)
    requires |body| == 0 || body[|body| - 1] != '`'
    requires |post| == 0 || post[0] != '`'
    ensures StripFences(pre + JsonFence + body + Fence + post) == Strip(body)
  {
    var rest := body + Fence + post;
    var s := pre + JsonFence + rest;
    assert pre + JsonFence + body + Fence + post == s;
    JsonFenceFirstAt(pre, rest);
    assert SecondPart(s, JsonFence) == Before(rest, JsonFence);
    JsonPartBeforeFence(body, post);
    StripFencesBranch(s);
  }

  /** The plain-fence branch: in a reply without "```json", the text between
      the first two fences comes back stripped. */
  lemma StripFencesPlain(pre: string, body: string, post: string)
    requires !Contains(pre + Fence + body + Fence + post, JsonFence)
    requires !Contains(pre, Fence)
    requires |pre| == 0 || pre[|pre| - 1] != '`'
    requires !Contains(body, Fence)
    requires |body| == 0 || body[|body| - 1] != '`'
    ensures StripFences(pre + Fence + body + Fence + post) == Strip(body)
  {
    var rest := body + Fence + post;
    var s := pre + Fence + rest;
    assert pre + Fence + body + Fence + post == s;
    FenceFirstAt(pre, rest);
    assert SecondPart(s, Fence) == Before(rest, Fence);
    FenceFirstAt(body, post);
    NoFenceBeforeItself(body);
    StripFencesBranch(s);
  }

  /** Cutting a fence-free text at its first fence keeps all of it. */
  lemma NoFenceBeforeItself(body: string)
    requires !Contains(body, Fence)
    ensures Before(body, Fence) == body
  {
  }

  /** A "```json" that starts one backtick late: in "````json" the cut
      falls after the first backtick, which stays with the body. */
  lemma StripFencesJsonOverlap(body: string, rest: string)
    requires !Contains(body, Fence)
    requires |body| == 0 || body[|body| - 1] != '`'
    ensures StripFences(JsonFence + body + "`" + JsonFence + rest) == Strip(body + "`")
  {
    var x := body + "`";
    var none: string := [];
    var s := none + JsonFence + (x + JsonFence + rest);
    assert JsonFence + body + "`" + JsonFence + rest == s;
    assert IndexFrom(none, JsonFence, 0).None?;
    JsonFenceFirstAt(none, x + JsonFence + rest);
    OneBacktickMore(body);
    assert JsonFence == Fence + "json";
    ContainsPrefix(x, Fence, "json");
    JsonFenceFirstAt(x, rest);
    assert Before(x + JsonFence + rest, JsonFence) == x;
    NoFenceBeforeItself(x);
    StripFencesBranch(s);
  }

  /** One backtick after a fence-free text not ending in one makes no fence. */
  lemma OneBacktickMore(body: string)
    requires !Contains(body, Fence)
    requires |body| == 0 || body[|body| - 1] != '`'
    ensures !Contains(body + "`", Fence)
  {
    var x := body + "`";
    ContainsIff(body, Fence);
    ContainsIff(x, Fence);
    forall j | OccursAt(x, Fence, j)
      ensures false
    {
      if j + 3 <= |body| {
        assert x[j..j + 3] == body[j..j + 3];
        assert OccursAt(body, Fence, j);
      } else {
        FenceChars(x, j, |body| - 1);
      }
    }
  }

  /** A fence-free body not ending in a backtick, wrapped as a JSON code
      block, comes back stripped. */
  lemma StripFencesRoundTrip(body: string)
    requires !Contains(body, Fence)
    requires |body| == 0 || body[|body| - 1] != '`'
    ensures StripFences(JsonFence + body + Fence) == Strip(body)
  {
    var none: string := [];
    assert none + JsonFence + body + Fence + none == JsonFence + body + Fence;
    assert IndexFrom(none, JsonFence, 0).None?;
    StripFencesJson(none, body, none);
  }

  // ---------------------------------------------------------------------------
  // Asking the model
  // ---------------------------------------------------------------------------

  /** What JSON decoding of the reply gave, as far as the planner looks at
      it: something other than an object, or an object whose "steps" key is
      missing or holds a list of steps. */
  datatype Decoded = NotObject | Object(steps: Option<seq<Step>>)

  /** The validity check on a decoded reply: an object with a non-empty "steps" list. */
  predicate Acceptable(d: Decoded) {
    d.Object? && d.steps.Some? && |d.steps.value| > 0
  }

  /** The reply text the planner works on. `reply` is the provider call's
      outcome: the message text, `None` when the response carried no content,
      or the exception the call raised. An empty Anthropic response counts
      as "{}"; an empty OpenAI one makes the fence test raise. */
  function ReplyText(provider: Provider, reply: Outcome<Option<string>>): (t: Outcome<string>)
    ensures reply.Raise? ==> t == Raise(reply.message)
    ensures reply.Ok? && reply.value.Some? ==> t == Ok(reply.value.value)
    ensures reply == Ok(None) ==> (t.Ok? <==> provider == Anthropic)
  {
    match reply
    case Raise(m) => Raise(m)
    case Ok(Some(text)) => Ok(text)
    case Ok(None) =>
      if provider == Anthropic then Ok("{}")
      else Raise("argument of type 'NoneType' is not iterable")
  }

  /** `AIClient.plan`. `parse` is `json.loads`: a decoded value or a
      decoding error. Every failure falls back to the heuristic plan, so
      the result is always an acceptable plan. */
  function AiPlan(provider: Option<Provider>, reply: Outcome<Option<string>>,
                  parse: string -> Outcome<Decoded>, app: string, task: string, url: string): (plan: Decoded)
    ensures Acceptable(plan)
    ensures provider.None? ==> plan == Object(Some(HeuristicPlan(app, task, url)))
    ensures provider.Some? && reply.Raise? ==> plan == Object(Some(HeuristicPlan(app, task, url)))
    ensures plan != Object(Some(HeuristicPlan(app, task, url))) ==>
      provider.Some? && ReplyText(provider.value, reply).Ok?
      && parse(StripFences(ReplyText(provider.value, reply).value)) == Ok(plan)
  {
    var fallback := Object(Some(HeuristicPlan(app, task, url)));
    match provider
    case None => fallback
    case Some(p) =>
      match ReplyText(p, reply)
      case Raise(_) => fallback
      case Ok(content) =>
        match parse(StripFences(content))
        case Raise(_) => fallback
        case Ok(data) => if Acceptable(data) then data else fallback
  }

  /** An acceptable decoded reply is returned as it is; an unacceptable one
      (not an object, no "steps", or an empty list) gives the heuristic plan. */
  lemma AiPlanUsesReply(p: Provider, reply: Outcome<Option<string>>, parse: string -> Outcome<Decoded>,
                        app: string, task: string, url: string, data: Decoded)
    requires ReplyText(p, reply).Ok? && parse(StripFences(ReplyText(p, reply).value)) == Ok(data)
    ensures AiPlan(Some(p), reply, parse, app, task, url) ==
      if Acceptable(data) then data else Object(Some(HeuristicPlan(app, task, url)))
  {
  }

  /** An empty Anthropic response is decoded as "{}", an object without
      "steps", and so yields the heuristic plan. */
  lemma EmptyAnthropicReply(parse: string -> Outcome<Decoded>, app: string, task: string, url: string)
    requires parse("{}") == Ok(Object(None))
    ensures AiPlan(Some(Anthropic), Ok(None), parse, app, task, url) == Object(Some(HeuristicPlan(app, task, url)))
  {
    assert !Contains("{}", Fence) by {
      ContainsIff("{}", Fence);
    }
  }
}

=== FILE: runner.dfy ===
/** The workflow loop (`run_once`).

    Each planned step, up to `max_steps` of them, is performed, the page
    state detected, a screenshot captured when the step asks for one, the
    state is significant, or the step is the first or the plan's last, and
    one record is appended. A step whose detection raises still gets a
    record, carrying the error and a best-effort screenshot.
 */
module Runner {
  import opened Basics
  import opened Text
  import opened Selectors
  import opened Browser
  import opened Executor
  import opened Detector
  import opened Screenshots
  import opened Planner
  import opened TaskPlanner

  /** What the loop works against: the page, the hash behind the markup
      signature, the slug function for directory names, and the app and
      task names. */
  datatype Env = Env(page: Page, hash: string -> string, slugify: string -> string, app: string, task: string)

  /** One entry of the recorded workflow. `screenshot` is `None` where the
      dictionary holds `None` (success path) or has no such key (error path),
      and `Some("")` when the capture was skipped as a duplicate. */
  datatype Record =
    | StepRecord(index: nat, description: Option<string>, action: Option<string>,
                 selector: Option<Selector>, input: Option<string>, url: string,
                 hasModal: bool, hasOverlay: bool, screenshot: Option<string>, timestamp: int)
    | ErrorRecord(index: nat, description: Option<string>, action: Option<string>,
                  error: string, screenshot: Option<string>, timestamp: int)

  /** `r.get('screenshot')` is truthy. */
  predicate HasScreenshot(r: Record) {
    r.screenshot.Some? && r.screenshot.value != ""
  }

  /** The screenshot count the run reports at the end. */
  function ScreenshotCount(rs: seq<Record>): (n: nat)
    ensures n <= |rs|
  {
    if |rs| == 0 then 0
    else ScreenshotCount(rs[..|rs| - 1]) + (if HasScreenshot(rs[|rs| - 1]) then 1 else 0)
  }

  /** The loop's state between two steps: the calls issued so far, the
      detector, the screenshot manager and the records. */
  datatype RunState = RunState(history: History, detector: StateDetector, guard: Guard, records: seq<Record>)

  /** `do_capture or i == 1 or i == len(steps)`; `total` is the length of the
      whole plan, not of the part that runs. The first step and the plan's
      last are always captured; any other step exactly when its hint is set
      or its state is significant. */
  function ShouldCapture(step: Step, state: PageState, i: nat, total: nat): (due: bool)
    ensures i == 1 || i == total ==> due
    ensures i != 1 && i != total ==> (due <==> step.captureHint == Some(true) || state.significant)
  {
    step.captureHint.GetOr(false) || state.significant || i == 1 || i == total
  }

  /** The `screenshot` value a capture leaves in a record: the returned
      string, or nothing when the capture raised. */
  function ShotValue(s: Shot): (v: Option<string>)
    ensures v.None? <==> s.Failed?
    ensures v.Some? && v.value != "" <==> s.Saved? && s.path != ""
  {
    if s.Failed? then None else Some(ReturnValue(s))
  }

  /** `f"step-{i}"`. */
  function StepLabel(i: nat): string {
    "step-" + IntToDecimal(i)
  }

  /** The steps the loop goes over: `plan.get("steps", [])`. */
  function PlanSteps(plan: Decoded): (steps: seq<Step>)
    ensures HasSteps(plan) ==> steps == plan.steps.value
    ensures !HasSteps(plan) ==> steps == []
  {
    if plan.Object? && plan.steps.Some? then plan.steps.value else []
  }

  /** One pass of the loop body for the `i`-th step (counting from 1). */
  function RunStep(env: Env, s: RunState, step: Step, i: nat, total: nat): (r: RunState)
    ensures |r.records| == |s.records| + 1 && r.records[..|s.records|] == s.records
    ensures var rec := r.records[|s.records|];
      rec.index == i && rec.description == step.description && rec.action == step.action
    ensures r.guard.outRoot == s.guard.outRoot
    ensures s.guard.counter <= r.guard.counter <= s.guard.counter + 1
    ensures HasScreenshot(r.records[|s.records|]) ==> r.guard.counter == s.guard.counter + 1
  {
    var performed := Perform(env.page, s.history, step);
    var acted := s.history + performed.issued;
    var detection := Detect(s.detector, env.page, acted, env.hash);
    var detected := acted + detection.issued;
    match detection.state
    case Ok(state) =>
      if ShouldCapture(step, state, i, total) then
        var c := Capture(s.guard, env.page, detected, env.app, env.task,
                         step.description.GetOr(StepLabel(i)), env.slugify);
        var rec := StepRecord(i, step.description, step.action, step.selector, step.input, state.url,
                              state.hasModal, state.hasOverlay, ShotValue(c.shot), state.timestamp);
        RunState(detected + c.issued, detection.detector, c.guard, s.records + [rec])
      else
        var rec := StepRecord(i, step.description, step.action, step.selector, step.input, state.url,
                              state.hasModal, state.hasOverlay, None, state.timestamp);
        RunState(detected, detection.detector, s.guard, s.records + [rec])
    case Raise(m) =>
      var c := Capture(s.guard, env.page, detected, env.app, env.task, StepLabel(i) + "-error", env.slugify);
      var after := detected + c.issued;
      var rec := ErrorRecord(i, step.description, step.action, m, ShotValue(c.shot), env.page.clock(after));
      RunState(after, detection.detector, c.guard, s.records + [rec])
  }

  /** What a step's record says about how the step went: a detection that
      raised gives an error record with that message, the screenshot of the
      error capture, and the detector's memory left alone; otherwise the
      record carries the detected state, and a capture is made exactly when
      one is due, its outcome recorded and its guard kept. The next step
      starts from the page after this step's action, detection and capture. */
  lemma RunStepRecord(env: Env, s: RunState, step: Step, i: nat, total: nat)
    ensures var r := RunStep(env, s, step, i, total);
      var rec := r.records[|s.records|];
      var h := s.history + Perform(env.page, s.history, step).issued;
      var detection := Detect(s.detector, env.page, h, env.hash);
      var detected := h + detection.issued;
      && (rec.ErrorRecord? <==> detection.state.Raise?)
      && (rec.ErrorRecord? ==>
            var c := Capture(s.guard, env.page, detected, env.app, env.task, StepLabel(i) + "-error", env.slugify);
            && rec.error == detection.state.message && r.detector == s.detector
            && rec.screenshot == ShotValue(c.shot) && r.guard == c.guard
            && rec.timestamp == env.page.clock(detected + c.issued)
            && r.history == detected + c.issued)
      && (rec.StepRecord? ==>
            var state := detection.state.value;
            && rec.url == state.url && rec.hasModal == state.hasModal && rec.hasOverlay == state.hasOverlay
            && rec.selector == step.selector && rec.input == step.input && rec.timestamp == state.timestamp
            && r.detector == detection.detector)
      && (rec.StepRecord? && ShouldCapture(step, detection.state.value, i, total) ==>
            var c := Capture(s.guard, env.page, detected, env.app, env.task,
                             step.description.GetOr(StepLabel(i)), env.slugify);
            rec.screenshot == ShotValue(c.shot) && r.guard == c.guard && r.history == detected + c.issued)
      && (rec.StepRecord? && !ShouldCapture(step, detection.state.value, i, total) ==>
            rec.screenshot.None? && r.guard == s.guard && r.history == detected)
  {
  }

  /** The first step always attempts a capture: on the success path its
      record lacks a screenshot only when that capture raised. */
  lemma FirstStepCaptured(env: Env, s: RunState, step: Step, total: nat)
    ensures var r := RunStep(env, s, step, 1, total);
      var rec := r.records[|s.records|];
      var h := s.history + Perform(env.page, s.history, step).issued;
      var detection := Detect(s.detector, env.page, h, env.hash);
      var c := Capture(s.guard, env.page, h + detection.issued, env.app, env.task,
                       step.description.GetOr(StepLabel(1)), env.slugify);
      rec.StepRecord? ==> (rec.screenshot.None? <==> c.shot.Failed?) && r.guard == c.guard
  {
  }

  /** The outcome of the `i`-th step, run from `s` to `r`, when the step is
      not forced to capture: on a detected state its record is a step
      record, and a screenshot is taken exactly when the step's hint is set
      or the state is significant. Otherwise the guard and the page are as
      detection left them. */
  ghost predicate UnforcedOutcome(env: Env, s: RunState, step: Step, i: nat, r: RunState) {
    var acted := s.history + Perform(env.page, s.history, step).issued;
    var detection := Detect(s.detector, env.page, acted, env.hash);
    var detected := acted + detection.issued;
    var c := Capture(s.guard, env.page, detected, env.app, env.task,
                     step.description.GetOr(StepLabel(i)), env.slugify);
    && r.records != []
    && var rec := r.records[|r.records| - 1];
    && (detection.state.Ok? ==> rec.StepRecord?)
    && (detection.state.Ok? && (step.captureHint.GetOr(false) || detection.state.value.significant) ==>
          rec.screenshot == ShotValue(c.shot) && r.guard == c.guard && r.history == detected + c.issued)
    && (detection.state.Ok? && !(step.captureHint.GetOr(false) || detection.state.value.significant) ==>
          rec.screenshot.None? && r.guard == s.guard && r.history == detected)
  }

  /** A step that is neither the first nor the last of the plan captures
      exactly when its hint is set or its state is significant. */
  lemma StepNotForced(env: Env, s: RunState, step: Step, i: nat, total: nat)
    requires i != 1 && i != total
    ensures UnforcedOutcome(env, s, step, i, RunStep(env, s, step, i, total))
  {
    RunStepRecord(env, s, step, i, total);
  }

  /** When `max_steps` cuts the plan short, the last step that runs is not
      forced to capture: in the loop `run_once` makes over the first
      `max_steps` steps, with `len(steps)` as the total, the last step's
      capture is made exactly when its hint is set or its state is
      significant. */
  lemma LastRecordedNotForced(env: Env, h: History, plan: Decoded, maxSteps: int,
                              networkIdleMs: int, captureDelayMs: int, outRoot: string)
    requires 2 <= maxSteps < |PlanSteps(plan)|
    ensures var steps := PlanSteps(plan);
      var run := SliceTo(steps, maxSteps);
      var init := InitialState(h, networkIdleMs, captureDelayMs, outRoot);
      var prev := Loop(Body(env, |steps|), init, run[..maxSteps - 1]);
      var final := Loop(Body(env, |steps|), init, run);
      && |run| == maxSteps && run[maxSteps - 1] == steps[maxSteps - 1]
      && final == RunStep(env, prev, run[maxSteps - 1], maxSteps, |steps|)
      && UnforcedOutcome(env, prev, run[maxSteps - 1], maxSteps, final)
  {
    var steps := PlanSteps(plan);
    var run := SliceTo(steps, maxSteps);
    var init := InitialState(h, networkIdleMs, captureDelayMs, outRoot);
    var prev := Loop(Body(env, |steps|), init, run[..maxSteps - 1]);
    LoopSnoc(Body(env, |steps|), init, run, maxSteps - 1);
    assert run[..maxSteps] == run;
    StepNotForced(env, prev, run[maxSteps - 1], maxSteps, |steps|);
  }

  /** Appending a record adds one to the count exactly when it has a screenshot. */
  lemma ScreenshotCountAppend(rs: seq<Record>, r: Record)
    ensures ScreenshotCount(rs + [r]) == ScreenshotCount(rs) + (if HasScreenshot(r) then 1 else 0)
  {
    assert (rs + [r])[..|rs|] == rs;
  }

  /** The records are numbered 1, 2, ... and copy the description and the
      action of the steps they record, in plan order. */
  predicate RecordsFollow(records: seq<Record>, run: seq<Step>) {
    && |records| <= |run|
    && forall k :: 0 <= k < |records| ==>
         && records[k].index == k + 1
         && records[k].description == run[k].description
         && records[k].action == run[k].action
  }

  /** The loop's invariant: records follow the plan, and the manager's
      counter lies between the screenshots reported and the records made. */
  predicate Progress(s: RunState, run: seq<Step>, outRoot: string) {
    && RecordsFollow(s.records, run)
    && ScreenshotCount(s.records) <= s.guard.counter <= |s.records|
    && s.guard.outRoot == outRoot
  }

  /** Appending the record of the next planned step, with the counter rising
      by at most one and by one when the record has a screenshot, keeps the
      loop's invariant. */
  lemma ProgressAppend(s: RunState, r: RunState, run: seq<Step>, outRoot: string)
    requires Progress(s, run, outRoot) && |s.records| < |run|
    requires |r.records| == |s.records| + 1 && r.records[..|s.records|] == s.records
    requires var rec := r.records[|s.records|];
      && rec.index == |s.records| + 1
      && rec.description == run[|s.records|].description && rec.action == run[|s.records|].action
    requires r.guard.outRoot == s.guard.outRoot
    requires s.guard.counter <= r.guard.counter <= s.guard.counter + 1
    requires HasScreenshot(r.records[|s.records|]) ==> r.guard.counter == s.guard.counter + 1
    ensures Progress(r, run, outRoot)
  {
    var i := |s.records|;
    assert r.records == s.records + [r.records[i]];
    ScreenshotCountAppend(s.records, r.records[i]);
  }

  /** One more step keeps the loop's invariant. */
  lemma RunStepProgress(env: Env, s: RunState, run: seq<Step>, total: nat, outRoot: string)
    requires Progress(s, run, outRoot) && |s.records| < |run|
    ensures Progress(RunStep(env, s, run[|s.records|], |s.records| + 1, total), run, outRoot)
  {
    var i := |s.records|;
    ProgressAppend(s, RunStep(env, s, run[i], i + 1, total), run, outRoot);
  }

  /** The state `run_once` starts its loop from: the page so far, a fresh
      detector, a fresh screenshot manager and no records. */
  function InitialState(h: History, networkIdleMs: int, captureDelayMs: int, outRoot: string): (s: RunState)
    ensures s.history == h && s.records == []
    ensures s.detector.lastSignature.None? && s.guard.counter == 0 && s.guard.outRoot == outRoot
  {
    RunState(h, NewDetector(networkIdleMs, captureDelayMs), NewGuard(outRoot), [])
  }

  /** The loop body of `run_once` for a plan of `total` steps: the `i`-th
      step (counting from 1) from a state. */
  function Body(env: Env, total: nat): (RunState, Step, nat) -> RunState {
    (s: RunState, step: Step, i: nat) => RunStep(env, s, step, i, total)
  }

  /** A `for i, step in enumerate(run, start=1)` loop: `body` applied to
      each step of `run` in turn, with its 1-based position. */
  function Loop(body: (RunState, Step, nat) -> RunState, s: RunState, run: seq<Step>): RunState
    decreases |run|
  {
    if |run| == 0 then s else body(Loop(body, s, run[..|run| - 1]), run[|run| - 1], |run|)
  }

  /** One more step of the loop is one more application of its body. */
  lemma LoopSnoc(body: (RunState, Step, nat) -> RunState, s: RunState, run: seq<Step>, k: nat)
    requires k < |run|
    ensures Loop(body, s, run[..k + 1]) == body(Loop(body, s, run[..k]), run[k], k + 1)
  {
    assert run[..k + 1][..k] == run[..k] && run[..k + 1][k] == run[k];
  }

  /** `run_once` from planning on: fresh detector and screenshot manager,
      then the loop over `steps[:max_steps]`, each step judged against the
      length of the whole plan. */
  method RunOnce(env: Env, h: History, plan: Decoded, maxSteps: int,
                 networkIdleMs: int, captureDelayMs: int, outRoot: string) returns (final: RunState)
    ensures var steps := PlanSteps(plan);
      final == Loop(Body(env, |steps|), InitialState(h, networkIdleMs, captureDelayMs, outRoot), SliceTo(steps, maxSteps))
    ensures var run := SliceTo(PlanSteps(plan), maxSteps);
      |final.records| == |run| && RecordsFollow(final.records, run)
    ensures ScreenshotCount(final.records) <= final.guard.counter <= |final.records|
    ensures final.guard.outRoot == outRoot
  {
    var steps := PlanSteps(plan);
    var run := SliceTo(steps, maxSteps);
    var init := InitialState(h, networkIdleMs, captureDelayMs, outRoot);
    final := init;
    while |final.records| < |run|
      invariant |final.records| <= |run|
      invariant final == Loop(Body(env, |steps|), init, run[..|final.records|])
      invariant Progress(final, run, outRoot)
      decreases |run| - |final.records|
    {
      var k := |final.records|;
      RunStepProgress(env, final, run, |steps|, outRoot);
      LoopSnoc(Body(env, |steps|), init, run, k);
      final := RunStep(env, final, run[k], k + 1, |steps|);
    }
    assert run[..|run|] == run;
  }

  /** A plan without "steps" runs nothing, normalised or not. */
  lemma EmptyPlanRecordsNothing(plan: Decoded, maxSteps: int)
    requires !HasSteps(plan)
    ensures |SliceTo(PlanSteps(plan), maxSteps)| == 0
    ensures |SliceTo(PlanSteps(NormalizePlan(plan)), maxSteps)| == 0
  {
  }
}

=== FILE: screenshots.dfy ===
/** The screenshot manager (`ScreenshotManager`).

    Screenshots go to `<out_root>/<app>/<task slug>/step-NN-<description slug>.png`.
    A duplicate-state guard remembers the URL and markup length of the last
    saved screenshot and skips a capture when both are unchanged.
 */
module Screenshots {
  import opened Basics
  import opened Text
  import opened Browser

  const TaskSlugLimit := 80
  const DescriptionSlugLimit := 70

  /** The output root, the running screenshot counter, and the guard's
      memory of the last saved state (`None` when it was unreadable or
      nothing was saved yet). */
  datatype Guard = Guard(outRoot: string, counter: nat, lastUrl: Option<string>, lastLength: Option<nat>)

  function NewGuard(outRoot: string): (g: Guard)
    ensures g.counter == 0 && g.lastUrl.None? && g.lastLength.None?
  {
    Guard(outRoot, 0, None, None)
  }

  /** `Path / name` for a relative name. */
  function JoinPath(dir: string, name: string): string {
    dir + "/" + name
  }

  /** `task_dir`: the slugified task, cut to 80 characters, under the app's directory. */
  function TaskDir(outRoot: string, app: string, task: string, slugify: string -> string): (dir: string)
    ensures var slug := SliceTo(slugify(task), TaskSlugLimit);
      |slug| <= TaskSlugLimit && dir == outRoot + "/" + app + "/" + slug
  {
    JoinPath(JoinPath(outRoot, app), SliceTo(slugify(task), TaskSlugLimit))
  }

  /** `description.lower().replace(" ", "-")[:70]`. */
  function DescriptionSlug(description: string): (slug: string)
    ensures |slug| <= DescriptionSlugLimit && |slug| <= |description|
    ensures ' ' !in slug
    ensures |description| <= DescriptionSlugLimit ==> |slug| == |description|
    ensures |description| > DescriptionSlugLimit ==> |slug| == DescriptionSlugLimit
    ensures forall k :: 0 <= k < |slug| ==>
      slug[k] == if description[k] == ' ' then '-' else LowerChar(description[k])
  {
    var dashed := ReplaceChar(Lower(description), ' ', '-');
    assert forall k :: 0 <= k < |dashed| ==> dashed[k] != ' ';
    SliceTo(dashed, DescriptionSlugLimit)
  }

  /** `f"step-{n:02d}-{slug}.png"`: the counter's padded digits between
      "step-" and '-', then the slug and ".png". */
  function FileName(counter: nat, description: string): (f: string)
    ensures var n := |ZeroPad2(counter)|;
      && |f| == 5 + n + 1 + |DescriptionSlug(description)| + 4
      && f[..5] == "step-" && f[|f| - 4..] == ".png"
      && f[5..5 + n] == ZeroPad2(counter) && f[5 + n] == '-'
      && f[6 + n..|f| - 4] == DescriptionSlug(description)
  {
    var digits, slug := ZeroPad2(counter), DescriptionSlug(description);
    var head := "step-" + digits + "-";
    var f := head + slug + ".png";
    assert |head| == 6 + |digits| && head[..5] == "step-" && head[5..5 + |digits|] == digits;
    assert f[..|head|] == head && f[|head|..|f| - 4] == slug && f[|f| - 4..] == ".png";
    f
  }

  /** The guard's reading of the page: URL and markup length, or neither
      when reading the markup raised. */
  function Sample(page: Page, h: History): (s: (Option<string>, Option<nat>))
    ensures s.0.Some? <==> s.1.Some?
    ensures s.0.Some? <==> page.markup(h).Ok?
    ensures s.0.Some? ==> s.0.value == page.url(h) && s.1.value == |page.markup(h).value|
  {
    match page.markup(h)
    case Ok(m) => (Some(page.url(h)), Some(|m|))
    case Raise(_) => (None, None)
  }

  /** What `capture` did: skipped (returning ""), saved to a path, or raised. */
  datatype Shot = Skipped | Saved(path: string) | Failed(message: string)

  /** The string `capture` returns when it does not raise. */
  function ReturnValue(s: Shot): string
    requires !s.Failed?
  {
    if s.Saved? then s.path else ""
  }

  datatype Captured = Captured(issued: seq<Call>, shot: Shot, guard: Guard)

  /** `ScreenshotManager.capture`. The counter moves on before the directory
      is made and the screenshot taken, so a failing screenshot still uses
      up its number; the guard's memory moves on only after a saved one. */
  function Capture(g: Guard, page: Page, h: History, app: string, task: string,
                   description: string, slugify: string -> string): (r: Captured)
    ensures r.guard.outRoot == g.outRoot
    ensures r.shot.Skipped? <==> (g.lastUrl, g.lastLength) == Sample(page, h)
    ensures r.shot.Skipped? ==> r.issued == [] && r.guard == g
    ensures !r.shot.Skipped? ==> r.guard.counter == g.counter + 1 && 1 <= |r.issued| <= 2
    ensures !r.shot.Skipped? ==> r.issued[0] == MakeDirs(TaskDir(g.outRoot, app, task, slugify))
    ensures r.shot.Saved? ==>
      && r.shot.path == JoinPath(TaskDir(g.outRoot, app, task, slugify), FileName(g.counter + 1, description))
      && r.issued == [MakeDirs(TaskDir(g.outRoot, app, task, slugify)), Screenshot(r.shot.path, false)]
      && (r.guard.lastUrl, r.guard.lastLength) == Sample(page, h)
    ensures r.shot.Failed? ==> r.guard.lastUrl == g.lastUrl && r.guard.lastLength == g.lastLength
    ensures var dir := TaskDir(g.outRoot, app, task, slugify);
      var shot := Screenshot(JoinPath(dir, FileName(g.counter + 1, description)), false);
      && (!r.shot.Skipped? ==>
            (r.shot.Saved? <==> page.reply(h, MakeDirs(dir)) == Returned && page.reply(h + [MakeDirs(dir)], shot) == Returned))
      && (!r.shot.Skipped? && page.reply(h, MakeDirs(dir)) == Returned ==> r.issued == [MakeDirs(dir), shot])
    ensures r.shot.Failed? ==> RaisedByLast(page, h, Exec(r.issued, Some(r.shot.message)))
  {
    var sample := Sample(page, h);
    if (g.lastUrl, g.lastLength) == sample then Captured([], Skipped, g)
    else
      var dir := TaskDir(g.outRoot, app, task, slugify);
      Save(g.(counter := g.counter + 1), page, h, dir, JoinPath(dir, FileName(g.counter + 1, description)), sample)
  }

  /** The part of `capture` past the guard: make the directory, then take
      the screenshot, both unguarded; only a saved screenshot moves the
      guard's memory on to `sample`. */
  function Save(counted: Guard, page: Page, h: History, dir: string, path: string,
                sample: (Option<string>, Option<nat>)): (r: Captured)
    ensures r.guard.outRoot == counted.outRoot && r.guard.counter == counted.counter
    ensures !r.shot.Skipped? && 1 <= |r.issued| <= 2 && r.issued[0] == MakeDirs(dir)
    ensures r.shot.Saved? <==>
      page.reply(h, MakeDirs(dir)) == Returned && page.reply(h + [MakeDirs(dir)], Screenshot(path, false)) == Returned
    ensures page.reply(h, MakeDirs(dir)) == Returned ==> r.issued == [MakeDirs(dir), Screenshot(path, false)]
    ensures r.shot.Saved? ==>
      r.shot.path == path && r.issued == [MakeDirs(dir), Screenshot(path, false)]
      && (r.guard.lastUrl, r.guard.lastLength) == sample
    ensures r.shot.Failed? ==>
      && r.guard.lastUrl == counted.lastUrl && r.guard.lastLength == counted.lastLength
      && RaisedByLast(page, h, Exec(r.issued, Some(r.shot.message)))
  {
    var e := IssueTwo(page, h, MakeDirs(dir), Screenshot(path, false));
    match e.error
    case Some(m) => Captured(e.issued, Failed(m), counted)
    case None => Captured(e.issued, Saved(path), counted.(lastUrl := sample.0, lastLength := sample.1))
  }

  // ---------------------------------------------------------------------------
  // Properties
  // ---------------------------------------------------------------------------

  /** On readable markup `m` the guard compares the page's URL and `len(m)`
      with the remembered pair, and a saved screenshot remembers exactly them. */
  lemma CaptureReadable(g: Guard, page: Page, h: History, app: string, task: string,
                        description: string, slugify: string -> string)
    requires page.markup(h).Ok?
    ensures var r := Capture(g, page, h, app, task, description, slugify);
      var m := page.markup(h).value;
      && (r.shot.Skipped? <==> g.lastUrl == Some(page.url(h)) && g.lastLength == Some(|m|))
      && (r.shot.Saved? ==> r.guard.lastUrl == Some(page.url(h)) && r.guard.lastLength == Some(|m|))
  {
  }

  /** Two captures of an unchanged page: the first saves, the second returns "". */
  lemma CaptureTwice(g: Guard, page: Page, h: History, app: string, task: string,
                     d1: string, d2: string, slugify: string -> string)
    requires Capture(g, page, h, app, task, d1, slugify).shot.Saved?
    requires var r := Capture(g, page, h, app, task, d1, slugify);
      Sample(page, h + r.issued) == Sample(page, h)
    ensures var r := Capture(g, page, h, app, task, d1, slugify);
      var r2 := Capture(r.guard, page, h + r.issued, app, task, d2, slugify);
      ReturnValue(r.shot) != "" && r2.shot == Skipped && ReturnValue(r2.shot) == ""
  {
  }

  /** On a fresh manager, a page whose markup cannot be read is never
      captured: the guard's empty memory looks the same as the failed reading. */
  lemma FirstCaptureUnreadable(outRoot: string, page: Page, h: History, app: string, task: string,
                               description: string, slugify: string -> string)
    ensures var r := Capture(NewGuard(outRoot), page, h, app, task, description, slugify);
      r.shot == Skipped <==> page.markup(h).Raise?
  {
  }

  /** Screenshot numbers never repeat across one manager's captures: two
      different counters give two different file names. */
  lemma FileNamesDistinct(k1: nat, k2: nat, d1: string, d2: string)
    requires k1 != k2
    ensures FileName(k1, d1) != FileName(k2, d2)
  {
    var a, b := ZeroPad2(k1), ZeroPad2(k2);
    var x, y := DescriptionSlug(d1) + ".png", DescriptionSlug(d2) + ".png";
    DigitPrefixesDiffer(a, b, x, y);
    NameAfterPrefix(k1, d1);
    NameAfterPrefix(k2, d2);
  }

  /** Past "step-", a file name is the counter's digits, '-', the slug and ".png". */
  lemma NameAfterPrefix(k: nat, d: string)
    ensures FileName(k, d)[5..] == ZeroPad2(k) + "-" + (DescriptionSlug(d) + ".png")
  {
    NameParts(FileName(k, d), ZeroPad2(k), DescriptionSlug(d));
  }

  lemma NameParts(f: string, a: string, slug: string)
    requires |f| == 5 + |a| + 1 + |slug| + 4
    requires f[5..5 + |a|] == a && f[5 + |a|] == '-'
    requires f[6 + |a|..|f| - 4] == slug && f[|f| - 4..] == ".png"
    ensures f[5..] == a + "-" + (slug + ".png")
  {
    var t, n := f[5..], |a|;
    assert t[..n] == a && t[n] == '-' && t[n + 1..|t| - 4] == slug && t[|t| - 4..] == ".png";
    assert t == t[..n] + [t[n]] + (t[n + 1..|t| - 4] + t[|t| - 4..]);
  }

  /** The shape of a file name: the "step-" prefix, the two-digit counter
      (for the first 99 screenshots), the slug, and the ".png" suffix. */
  lemma FileNameShape(counter: nat, description: string)
    requires counter < 100
    ensures var f := FileName(counter, description);
      && f[..5] == "step-" && AllDigits(f[5..7]) && DecimalValue(f[5..7]) == counter
      && f[7] == '-' && f[|f| - 4..] == ".png"
      && f[8..|f| - 4] == DescriptionSlug(description)
      && ' ' !in f[8..|f| - 4] && |f| <= 8 + DescriptionSlugLimit + 4
  {
    var f := FileName(counter, description);
    assert f[5..7] == ZeroPad2(counter);
  }
}

=== FILE: selectors.dfy ===
/** Selector resolution (`ActionExecutor._resolve`).

    A plan step names its target element with a small dictionary; the
    resolver picks exactly one kind of Playwright locator from it under a
    fixed precedence, falling back to the document `body`.
 */
module Selectors {
  import opened Basics
  import opened Text

  /** A selector dictionary. Each known key is either absent (`None`) or holds
      a string; `otherKeys` records whether keys the resolver ignores are
      present, which only matters for telling an empty dictionary apart. */
  datatype Selector = Selector(
    css: Option<string>,
    role: Option<string>,
    nameRegex: Option<string>,
    name: Option<string>,
    text: Option<string>,
    placeholder: Option<string>,
    labelText: Option<string>,  // the "label" key
    xpath: Option<string>,
    otherKeys: bool)

  /** The selector holding only a `css` entry, as the planner writes for `goto`. */
  function CssSelector(value: string): Selector {
    Selector(Some(value), None, None, None, None, None, None, None, false)
  }

  /** The selector holding only a `text` entry. */
  function TextSelector(value: string): Selector {
    Selector(None, None, None, None, Some(value), None, None, None, false)
  }

  /** The selector holding a `role` and a `name_regex` entry. */
  function RolePatternSelector(role: string, pattern: string): Selector {
    Selector(None, Some(role), Some(pattern), None, None, None, None, None, false)
  }

  /** Python truthiness of `d.get(key)` for a string-valued key. */
  predicate Truthy(v: Option<string>) {
    v.Some? && v.value != ""
  }

  /** The dictionary has no keys at all. */
  predicate IsEmpty(s: Selector) {
    && s.css.None? && s.role.None? && s.nameRegex.None? && s.name.None?
    && s.text.None? && s.placeholder.None? && s.labelText.None? && s.xpath.None?
    && !s.otherKeys
  }

  /** `not selector`: a missing selector or an empty dictionary. */
  predicate Falsy(sel: Option<Selector>) {
    sel.None? || IsEmpty(sel.value)
  }

  predicate StartsWith(s: string, prefix: string) {
    |prefix| <= |s| && s[..|prefix|] == prefix
  }

  /** A lazily evaluated element reference. Actions always use its first match. */
  datatype Locator =
    | Body                                         // page.locator("body")
    | Css(selector: string)                        // page.locator(css)
    | RolePattern(role: string, pattern: string)   // get_by_role with a case-insensitive regex on the name
    | RoleName(role: string, name: string)         // get_by_role with an exact name
    | ByText(text: string)                         // get_by_text
    | ByPlaceholder(placeholder: string)           // get_by_placeholder
    | ByLabel(labelText: string)                     // get_by_label
    | XPath(path: string)                          // page.locator("xpath=" + path)

  /** `ActionExecutor._resolve`. */
  function Resolve(sel: Option<Selector>): (r: Locator)
    ensures Falsy(sel) ==> r == Body
  {
    if Falsy(sel) then Body
    else
      var s := sel.value;
      if Truthy(s.css) then
        (if StartsWith(s.css.value, "http") then Body else Css(s.css.value))
      else if s.role.Some? && Truthy(s.nameRegex) then RolePattern(s.role.value, s.nameRegex.value)
      else if s.role.Some? && s.name.Some? then RoleName(s.role.value, s.name.value)
      else if Truthy(s.text) then ByText(s.text.value)
      else if Truthy(s.placeholder) then ByPlaceholder(s.placeholder.value)
      else if Truthy(s.labelText) then ByLabel(s.labelText.value)
      else if Truthy(s.xpath) then XPath(s.xpath.value)
      else Body
  }

  // ---------------------------------------------------------------------------
  // Precedence, stated clause by clause
  // ---------------------------------------------------------------------------

  /** Which locator each clause of the resolver would produce on its own, in
      precedence order; `None` where the clause does not apply. */
  function Clauses(s: Selector): seq<Option<Locator>> {
    [ if Truthy(s.css) then Some(if StartsWith(s.css.value, "http") then Body else Css(s.css.value)) else None,
      if s.role.Some? && Truthy(s.nameRegex) then Some(RolePattern(s.role.value, s.nameRegex.value)) else None,
      if s.role.Some? && s.name.Some? then Some(RoleName(s.role.value, s.name.value)) else None,
      if Truthy(s.text) then Some(ByText(s.text.value)) else None,
      if Truthy(s.placeholder) then Some(ByPlaceholder(s.placeholder.value)) else None,
      if Truthy(s.labelText) then Some(ByLabel(s.labelText.value)) else None,
      if Truthy(s.xpath) then Some(XPath(s.xpath.value)) else None ]
  }

  /** The first applicable clause at or after position `i`, or `fallback` when none applies. */
  function FirstApplicable(cs: seq<Option<Locator>>, i: nat, fallback: Locator): Locator
    decreases |cs| - i
  {
    if i >= |cs| then fallback
    else if cs[i].Some? then cs[i].value
    else FirstApplicable(cs, i + 1, fallback)
  }

  /** The resolver is "first applicable clause in precedence order, else body". */
  lemma ResolveIsFirstApplicable(s: Selector)
    requires !IsEmpty(s)
    ensures Resolve(Some(s)) == FirstApplicable(Clauses(s), 0, Body)
  {
    var cs := Clauses(s);
    assert FirstApplicable(cs, 7, Body) == Body;
    assert FirstApplicable(cs, 6, Body) == if cs[6].Some? then cs[6].value else Body;
    assert FirstApplicable(cs, 5, Body) == if cs[5].Some? then cs[5].value else FirstApplicable(cs, 6, Body);
    assert FirstApplicable(cs, 4, Body) == if cs[4].Some? then cs[4].value else FirstApplicable(cs, 5, Body);
    assert FirstApplicable(cs, 3, Body) == if cs[3].Some? then cs[3].value else FirstApplicable(cs, 4, Body);
    assert FirstApplicable(cs, 2, Body) == if cs[2].Some? then cs[2].value else FirstApplicable(cs, 3, Body);
    assert FirstApplicable(cs, 1, Body) == if cs[1].Some? then cs[1].value else FirstApplicable(cs, 2, Body);
  }

  /** Each locator kind comes out exactly when its clause applies and no
      earlier clause does, carrying the value of that clause's key. */
  lemma ResolvePrecedence(sel: Option<Selector>)
    ensures Resolve(sel).Css? <==>
      !Falsy(sel) && Truthy(sel.value.css) && !StartsWith(sel.value.css.value, "http")
    ensures Resolve(sel).Css? ==> Resolve(sel).selector == sel.value.css.value
    ensures Resolve(sel).RolePattern? <==>
      !Falsy(sel) && !Truthy(sel.value.css) && sel.value.role.Some? && Truthy(sel.value.nameRegex)
    ensures Resolve(sel).RoleName? <==>
      && !Falsy(sel) && !Truthy(sel.value.css)
      && sel.value.role.Some? && !Truthy(sel.value.nameRegex) && sel.value.name.Some?
    ensures Resolve(sel).ByText? <==>
      && !Falsy(sel) && !Truthy(sel.value.css)
      && !(sel.value.role.Some? && (Truthy(sel.value.nameRegex) || sel.value.name.Some?))
      && Truthy(sel.value.text)
    ensures Resolve(sel).ByText? ==> Resolve(sel).text == sel.value.text.value
    ensures Resolve(sel).ByPlaceholder? <==>
      && !Falsy(sel) && !Truthy(sel.value.css)
      && !(sel.value.role.Some? && (Truthy(sel.value.nameRegex) || sel.value.name.Some?))
      && !Truthy(sel.value.text) && Truthy(sel.value.placeholder)
    ensures Resolve(sel).ByLabel? <==>
      && !Falsy(sel) && !Truthy(sel.value.css)
      && !(sel.value.role.Some? && (Truthy(sel.value.nameRegex) || sel.value.name.Some?))
      && !Truthy(sel.value.text) && !Truthy(sel.value.placeholder) && Truthy(sel.value.labelText)
    ensures Resolve(sel).XPath? <==>
      && !Falsy(sel) && !Truthy(sel.value.css)
      && !(sel.value.role.Some? && (Truthy(sel.value.nameRegex) || sel.value.name.Some?))
      && !Truthy(sel.value.text) && !Truthy(sel.value.placeholder) && !Truthy(sel.value.labelText)
      && Truthy(sel.value.xpath)
  {
  }

  /** The `body` fallback: a missing or empty selector, a css value starting
      with "http", or a selector none of whose clauses applies. */
  lemma ResolveBody(sel: Option<Selector>)
    ensures Resolve(sel) == Body <==>
      || Falsy(sel)
      || (Truthy(sel.value.css) && StartsWith(sel.value.css.value, "http"))
      || (forall k :: 0 <= k < |Clauses(sel.value)| ==> Clauses(sel.value)[k].None?)
  {
    if !Falsy(sel) {
      var cs := Clauses(sel.value);
      assert (forall k :: 0 <= k < |cs| ==> cs[k].None?) <==>
        cs[0].None? && cs[1].None? && cs[2].None? && cs[3].None? && cs[4].None? && cs[5].None? && cs[6].None?;
    }
  }
}

=== FILE: task_planner.dfy ===
/** The task planner (`TaskPlanner.plan`): asks the planner and makes sure
    the caller always gets an object with a "steps" key. */
module TaskPlanner {
  import opened Basics
  import opened Executor
  import opened Planner

  /** The result has "steps". */
  predicate HasSteps(plan: Decoded) {
    plan.Object? && plan.steps.Some?
  }

  /** Anything that is not an object with "steps" becomes `{"steps": []}`;
      an object with "steps" passes through untouched. */
  function NormalizePlan(plan: Decoded): (r: Decoded)
    ensures HasSteps(r)
    ensures HasSteps(plan) ==> r == plan
    ensures !HasSteps(plan) ==> r == Object(Some([]))
  {
    if plan.Object? && plan.steps.Some? then plan else Object(Some([]))
  }

  /** Normalising is idempotent. */
  lemma NormalizeIdempotent(plan: Decoded)
    ensures NormalizePlan(NormalizePlan(plan)) == NormalizePlan(plan)
  {
  }

  /** `TaskPlanner.plan`. */
  function Plan(provider: Option<Provider>, reply: Outcome<Option<string>>,
                parse: string -> Outcome<Decoded>, app: string, task: string, url: string): (r: Decoded)
    ensures HasSteps(r) && |r.steps.value| > 0
  {
    NormalizePlan(AiPlan(provider, reply, parse, app, task, url))
  }

  /** The planner already returns acceptable plans, so normalising never
      changes them: the task planner's result is the planner's. */
  lemma PlanIsAiPlan(provider: Option<Provider>, reply: Outcome<Option<string>>,
                     parse: string -> Outcome<Decoded>, app: string, task: string, url: string)
    ensures Plan(provider, reply, parse, app, task, url) == AiPlan(provider, reply, parse, app, task, url)
  {
  }
}

=== FILE: text.dfy ===
/** String operations of the Python runtime that the modelled code relies on:
    substring search (`in`, `split`), `strip`, `lower`, `replace`, slicing,
    `"%02d"` formatting and `int(str)` parsing. Strings are `seq<char>`.
 */
module Text {
  import opened Basics

  // ---------------------------------------------------------------------------
  // Substring search
  // ---------------------------------------------------------------------------

  /** `pat` occurs in `s` starting at position `j`. */
  predicate OccursAt(s: string, pat: string, j: int) {
    0 <= j && j + |pat| <= |s| && s[j..j + |pat|] == pat
  }

  /** The first occurrence of `pat` in `s` at or after position `i`. */
  function IndexFrom(s: string, pat: string, i: nat): (r: Option<nat>)
    ensures r.Some? ==> i <= r.value && OccursAt(s, pat, r.value)
    ensures r.Some? ==> forall j :: i <= j < r.value ==> !OccursAt(s, pat, j)
    ensures r.None? ==> forall j :: i <= j ==> !OccursAt(s, pat, j)
    decreases |s| - i
  {
    if i + |pat| > |s| then None
    else if s[i..i + |pat|] == pat then Some(i)
    else IndexFrom(s, pat, i + 1)
  }

  /** Python's `s.find(pat)`, with `None` for -1. */
  function IndexOf(s: string, pat: string): Option<nat> {
    IndexFrom(s, pat, 0)
  }

  /** Python's `pat in s`. */
  predicate Contains(s: string, pat: string) {
    IndexOf(s, pat).Some?
  }

  lemma ContainsIff(s: string, pat: string)
    ensures Contains(s, pat) <==> exists j :: OccursAt(s, pat, j)
  {
    if Contains(s, pat) {
      assert OccursAt(s, pat, IndexOf(s, pat).value);
    }
  }

  /** `s.split(sep)[0]`: the text before the first `sep`, or all of `s` when there is none. */
  function Before(s: string, sep: string): string {
    match IndexOf(s, sep)
    case None => s
    case Some(i) => s[..i]
  }

  /** The text after the first `sep` (empty when there is none); `s.split(sep)[1]`
      is `Before(After(s, sep), sep)` whenever `sep` occurs in `s`. */
  function After(s: string, sep: string): string {
    match IndexOf(s, sep)
    case None => ""
    case Some(i) => s[i + |sep|..]
  }

  lemma BeforeHasNoSeparator(s: string, sep: string)
    requires |sep| > 0
    ensures !Contains(Before(s, sep), sep)
  {
    var b := Before(s, sep);
    forall j | OccursAt(b, sep, j) ensures false {
      assert OccursAt(s, sep, j) by {
        assert b == s[..|b|];
        assert s[j..j + |sep|] == b[j..j + |sep|];
      }
    }
    ContainsIff(b, sep);
  }

  /** An occurrence inside a slice is an occurrence in the whole string. */
  lemma InfixOccurrence(s: string, a: nat, b: nat, pat: string)
    requires a <= b <= |s|
    ensures Contains(s[a..b], pat) ==> Contains(s, pat)
  {
    if Contains(s[a..b], pat) {
      var j := IndexOf(s[a..b], pat).value;
      assert OccursAt(s[a..b], pat, j);
      assert s[a + j..a + j + |pat|] == pat;
      assert OccursAt(s, pat, a + j);
      ContainsIff(s, pat);
    }
  }

  // ---------------------------------------------------------------------------
  // Whitespace stripping (str.strip with no argument)
  // ---------------------------------------------------------------------------

  /** The characters for which Python's `str.isspace()` holds. */
  predicate IsSpace(c: char) {
    var n := c as int;
    || 0x09 <= n <= 0x0D || 0x1C <= n <= 0x20 || n == 0x85 || n == 0xA0
    || n == 0x1680 || 0x2000 <= n <= 0x200A || n == 0x2028 || n == 0x2029
    || n == 0x202F || n == 0x205F || n == 0x3000
  }

  /** Number of leading whitespace characters. */
  function StripStart(s: string): (a: nat)
    ensures a <= |s|
    ensures forall k :: 0 <= k < a ==> IsSpace(s[k])
    ensures a < |s| ==> !IsSpace(s[a])
  {
    if |s| == 0 || !IsSpace(s[0]) then 0 else 1 + StripStart(s[1..])
  }

  /** Length of `s` without its trailing whitespace. */
  function StripEnd(s: string): (b: nat)
    ensures b <= |s|
    ensures forall k :: b <= k < |s| ==> IsSpace(s[k])
    ensures 0 < b ==> !IsSpace(s[b - 1])
  {
    if |s| == 0 || !IsSpace(s[|s| - 1]) then |s| else StripEnd(s[..|s| - 1])
  }

  /** Python's `s.strip()`: a slice of `s` that neither starts nor ends with whitespace. */
  function Strip(s: string): (r: string)
    ensures StripStart(s) + |r| <= |s| && r == s[StripStart(s)..StripStart(s) + |r|]
    ensures |r| == 0 || (!IsSpace(r[0]) && !IsSpace(r[|r| - 1]))
    ensures forall k :: 0 <= k < StripStart(s) ==> IsSpace(s[k])
    ensures forall k :: StripStart(s) + |r| <= k < |s| ==> IsSpace(s[k])
  {
    var a := StripStart(s);
    var b := StripEnd(s[a..]);
    StripTail(s, a, b);
    s[a..][..b]
  }

  /** The whitespace `StripEnd` finds at the end of a suffix is at the end of `s`. */
  lemma StripTail(s: string, a: nat, b: nat)
    requires a <= |s| && b == StripEnd(s[a..])
    ensures a + b <= |s|
    ensures forall k :: a + b <= k < |s| ==> IsSpace(s[k])
    ensures 0 < b ==> !IsSpace(s[a + b - 1])
  {
    var t := s[a..];
    assert forall k :: a + b <= k < |s| ==> s[k] == t[k - a];
  }

  lemma StripUntrimmed(s: string)
    requires |s| == 0 || (!IsSpace(s[0]) && !IsSpace(s[|s| - 1]))
    ensures Strip(s) == s
  {
  }

  lemma StripIdempotent(s: string)
    ensures Strip(Strip(s)) == Strip(s)
  {
    StripUntrimmed(Strip(s));
  }

  lemma StripKeepsAbsence(s: string, pat: string)
    ensures !Contains(s, pat) ==> !Contains(Strip(s), pat)
  {
    var a := StripStart(s);
    InfixOccurrence(s, a, a + |Strip(s)|, pat);
  }

  // ---------------------------------------------------------------------------
  // Character mapping and slicing
  // ---------------------------------------------------------------------------

  function LowerChar(c: char): char {
    if 'A' <= c <= 'Z' then (c as int + 32) as char else c
  }

  /** `s.lower()` restricted to the ASCII letters. */
  function Lower(s: string): string {
    seq(|s|, k requires 0 <= k < |s| => LowerChar(s[k]))
  }

  /** `s.replace(from, to)` for a single-character pattern and replacement. */
  function ReplaceChar(s: string, from: char, to: char): string {
    seq(|s|, k requires 0 <= k < |s| => if s[k] == from then to else s[k])
  }

  /** Python's `xs[:n]`: a negative `n` counts from the end. */
  function SliceTo<T>(xs: seq<T>, n: int): (r: seq<T>)
    ensures |r| <= |xs| && r == xs[..|r|]
    ensures 0 <= n ==> |r| == if n < |xs| then n else |xs|
    ensures n < 0 ==> |r| == if |xs| + n < 0 then 0 else |xs| + n
  {
    if 0 <= n then (if n < |xs| then xs[..n] else xs)
    else if |xs| + n < 0 then []
    else xs[..|xs| + n]
  }

  // ---------------------------------------------------------------------------
  // Splitting on one character, and joining back
  // ---------------------------------------------------------------------------

  /** Python's `s.split(c)` for a one-character separator. */
  function SplitOn(s: string, c: char): (parts: seq<string>)
    ensures |parts| >= 1
    ensures forall k :: 0 <= k < |parts| ==> c !in parts[k]
  {
    if |s| == 0 then [""]
    else
      var rest := SplitOn(s[1..], c);
      if s[0] == c then [""] + rest
      else [[s[0]] + rest[0]] + rest[1..]
  }

  /** Python's `c.join(parts)`. */
  function JoinWith(parts: seq<string>, c: char): string
    requires |parts| >= 1
  {
    if |parts| == 1 then parts[0] else parts[0] + [c] + JoinWith(parts[1..], c)
  }

  function CountChar(s: string, c: char): nat {
    if |s| == 0 then 0 else (if s[0] == c then 1 else 0) + CountChar(s[1..], c)
  }

  lemma JoinSplit(s: string, c: char)
    ensures JoinWith(SplitOn(s, c), c) == s
    ensures |SplitOn(s, c)| == CountChar(s, c) + 1
  {
    JoinOfSplit(s, c);
    SplitCount(s, c);
  }

  lemma {:induction false} JoinOfSplit(s: string, c: char)
    ensures JoinWith(SplitOn(s, c), c) == s
    decreases |s|
  {
    if |s| > 0 {
      JoinOfSplit(s[1..], c);
      var rest := SplitOn(s[1..], c);
      if s[0] != c {
        JoinExtendFirst([s[0]], rest, c);
      } else {
        assert SplitOn(s, c) == [""] + rest;
      }
      assert s == [s[0]] + s[1..];
    }
  }

  /** Gluing `x` onto the first part glues it onto the joined string. */
  lemma JoinExtendFirst(x: string, parts: seq<string>, c: char)
    requires |parts| >= 1
    ensures JoinWith([x + parts[0]] + parts[1..], c) == x + JoinWith(parts, c)
  {
    if |parts| > 1 {
      assert ([x + parts[0]] + parts[1..])[1..] == parts[1..];
    }
  }

  lemma {:induction false} SplitCount(s: string, c: char)
    ensures |SplitOn(s, c)| == CountChar(s, c) + 1
    decreases |s|
  {
    if |s| > 0 {
      SplitCount(s[1..], c);
    }
  }

  lemma {:induction false} SplitPrefix(p: string, c: char, rest: string)
    requires c !in p
    ensures SplitOn(p + [c] + rest, c) == [p] + SplitOn(rest, c)
    decreases |p|
  {
    if |p| == 0 {
      assert p + [c] + rest == [c] + rest;
      assert ([c] + rest)[1..] == rest;
    } else {
      SplitPrefix(p[1..], c, rest);
      assert (p + [c] + rest)[1..] == p[1..] + [c] + rest;
      assert [p[0]] + p[1..] == p;
    }
  }

  lemma {:induction false} SplitNoSeparator(p: string, c: char)
    requires c !in p
    ensures SplitOn(p, c) == [p]
    decreases |p|
  {
    if |p| > 0 {
      SplitNoSeparator(p[1..], c);
      assert [p[0]] + p[1..] == p;
    }
  }

  /** Splitting a join of separator-free parts gives the parts back. */
  lemma {:induction false} SplitJoin(parts: seq<string>, c: char)
    requires |parts| >= 1
    requires forall k :: 0 <= k < |parts| ==> c !in parts[k]
    ensures SplitOn(JoinWith(parts, c), c) == parts
    decreases |parts|
  {
    if |parts| == 1 {
      SplitNoSeparator(parts[0], c);
    } else {
      SplitJoin(parts[1..], c);
      SplitPrefix(parts[0], c, JoinWith(parts[1..], c));
      assert parts == [parts[0]] + parts[1..];
    }
  }

  // ---------------------------------------------------------------------------
  // Decimal numerals
  // ---------------------------------------------------------------------------

  predicate IsDigit(c: char) {
    '0' <= c <= '9'
  }

  predicate AllDigits(s: string) {
    forall k :: 0 <= k < |s| ==> IsDigit(s[k])
  }

  function DigitChar(d: nat): char
    requires d < 10
  {
    ('0' as int + d) as char
  }

  function DigitValue(c: char): nat
    requires IsDigit(c)
  {
    c as int - '0' as int
  }

  /** The value of a string of decimal digits (leading zeros allowed). */
  function DecimalValue(s: string): nat
    requires AllDigits(s)
  {
    if |s| == 0 then 0 else DecimalValue(s[..|s| - 1]) * 10 + DigitValue(s[|s| - 1])
  }

  /** Python's `str(n)` for a natural number. */
  function NatToDecimal(n: nat): (r: string)
    ensures |r| >= 1 && AllDigits(r)
    ensures |r| > 1 ==> r[0] != '0'
    ensures n < 10 <==> |r| == 1
  {
    if n < 10 then [DigitChar(n)] else NatToDecimal(n / 10) + [DigitChar(n % 10)]
  }

  lemma {:induction false} DecimalRoundTrip(n: nat)
    ensures DecimalValue(NatToDecimal(n)) == n
  {
    if n >= 10 {
      DecimalRoundTrip(n / 10);
      var r := NatToDecimal(n);
      assert r[..|r| - 1] == NatToDecimal(n / 10);
    }
  }

  /** Python's `f"{n:02d}"`: at least two digits, zero-padded on the left. */
  function ZeroPad2(n: nat): (r: string)
    ensures AllDigits(r) && |r| >= 2
    ensures n < 100 ==> |r| == 2
    ensures DecimalValue(r) == n
    ensures |r| > 2 ==> r[0] != '0'
  {
    DecimalRoundTrip(n);
    if n < 10 then
      var r := "0" + NatToDecimal(n);
      assert r[..|r| - 1] == "0";
      r
    else NatToDecimal(n)
  }

  /** Two different digit strings stay different once a '-' and anything else follow them. */
  lemma DigitPrefixesDiffer(a: string, b: string, x: string, y: string)
    requires AllDigits(a) && AllDigits(b) && a != b
    ensures a + "-" + x != b + "-" + y
  {
    var s, t := a + "-" + x, b + "-" + y;
    if |a| == |b| {
      assert exists k :: 0 <= k < |a| && a[k] != b[k];
      var k :| 0 <= k < |a| && a[k] != b[k];
      assert s[k] == a[k] && t[k] == b[k];
    } else if |a| < |b| {
      assert s[|a|] == '-' && t[|a|] == b[|a|];
    } else {
      assert t[|b|] == '-' && s[|b|] == a[|b|];
    }
  }

  // ---------------------------------------------------------------------------
  // int(str)
  // ---------------------------------------------------------------------------

  /** Digits separated by single underscores, starting and ending with a digit. */
  predicate DigitGroups(b: string) {
    && |b| > 0 && IsDigit(b[0]) && IsDigit(b[|b| - 1])
    && (forall k :: 0 <= k < |b| ==> IsDigit(b[k]) || b[k] == '_')
    && !Contains(b, "__")
  }

  function DropUnderscores(b: string): (r: string)
    requires forall k :: 0 <= k < |b| ==> IsDigit(b[k]) || b[k] == '_'
    ensures AllDigits(r)
    ensures AllDigits(b) ==> r == b
  {
    if |b| == 0 then ""
    else if b[0] == '_' then DropUnderscores(b[1..])
    else [b[0]] + DropUnderscores(b[1..])
  }

  /** An unsigned numeral with optional single underscores between digits. */
  function ParseDigits(body: string): Option<int> {
    if DigitGroups(body) then Some(DecimalValue(DropUnderscores(body))) else None
  }

  /** A numeral with an optional leading sign. */
  function ParseSigned(t: string): Option<int> {
    if |t| > 0 && t[0] == '-' then
      match ParseDigits(t[1..])
      case Some(m) => Some(-m)
      case None => None
    else if |t| > 0 && t[0] == '+' then ParseDigits(t[1..])
    else ParseDigits(t)
  }

  /** The text after its one leading sign, if it has one. */
  function Unsigned(t: string): string {
    if |t| > 0 && (t[0] == '-' || t[0] == '+') then t[1..] else t
  }

  /** What `int` accepts once the whitespace is gone: an optional sign,
      then digit groups joined by single underscores. */
  predicate Numeral(t: string) {
    DigitGroups(Unsigned(t))
  }

  /** The value a numeral denotes: its digits read in base 10, negated
      after a leading '-'. */
  function NumeralValue(t: string): int
    requires Numeral(t)
  {
    var magnitude := DecimalValue(DropUnderscores(Unsigned(t))) as int;
    if t[0] == '-' then -magnitude else magnitude
  }

  /** A numeral holds only digits and underscores, past its optional sign. */
  lemma NumeralChars(t: string)
    requires Numeral(t)
    ensures |t| > 0 && IsDigit(t[|t| - 1])
    ensures forall k :: 0 <= k < |t| ==> IsDigit(t[k]) || t[k] == '_' || (k == 0 && (t[k] == '-' || t[k] == '+'))
  {
    var u := Unsigned(t);
    if u != t {
      assert forall k :: 1 <= k < |t| ==> t[k] == u[k - 1];
    }
  }

  /** Python's `int(s)` in base 10 for ASCII numerals: surrounding whitespace,
      an optional sign, digits with single underscores between them; `None`
      where Python raises `ValueError`. */
  function ParseInt(s: string): (r: Option<int>)
    ensures |Strip(s)| == 0 ==> r.None?
    ensures r.Some? <==> Numeral(Strip(s))
    ensures r.Some? ==> r.value == NumeralValue(Strip(s))
    ensures r.Some? ==> forall k :: 0 <= k < |Strip(s)| ==>
      IsDigit(Strip(s)[k]) || Strip(s)[k] == '_' || (k == 0 && (Strip(s)[k] == '-' || Strip(s)[k] == '+'))
    ensures r.Some? && r.value < 0 ==> Strip(s)[0] == '-'
    ensures |Strip(s)| > 0 && AllDigits(Strip(s)) ==> r == Some(DecimalValue(Strip(s)) as int)
  {
    var t := Strip(s);
    if |t| > 0 && AllDigits(t) then
      DigitsAreGroups(t);
      ParseSigned(t)
    else
      if Numeral(t) then NumeralChars(t); ParseSigned(t)
      else ParseSigned(t)
  }

  /** Python's `str(n)` for any integer. */
  function IntToDecimal(n: int): string {
    if n < 0 then "-" + NatToDecimal(-n) else NatToDecimal(n)
  }

  lemma DigitsAreGroups(d: string)
    requires |d| > 0 && AllDigits(d)
    ensures DigitGroups(d) && DropUnderscores(d) == d
    ensures ParseDigits(d) == Some(DecimalValue(d) as int)
  {
  }

  lemma ParseUnsigned(d: string)
    requires |d| > 0 && AllDigits(d)
    ensures ParseInt(d) == Some(DecimalValue(d))
  {
    DigitsAreGroups(d);
    StripUntrimmed(d);
  }

  lemma StripNegativeNumeral(d: string)
    requires |d| > 0 && AllDigits(d)
    ensures Strip("-" + d) == "-" + d
  {
    var s := "-" + d;
    assert s[|s| - 1] == d[|d| - 1];
    StripUntrimmed(s);
  }

  lemma ParseSignedNegative(d: string)
    requires |d| > 0 && AllDigits(d)
    ensures ParseSigned("-" + d) == Some(-(DecimalValue(d) as int))
  {
    var t := "-" + d;
    assert t[1..] == d;
    DigitsAreGroups(d);
    ParseSignedMinus(t);
  }

  /** A leading '-' negates the numeral after it. */
  lemma ParseSignedMinus(t: string)
    requires |t| > 0 && t[0] == '-' && ParseDigits(t[1..]).Some?
    ensures ParseSigned(t) == Some(-ParseDigits(t[1..]).value)
  {
  }

  lemma ParseNegative(d: string)
    requires |d| > 0 && AllDigits(d)
    ensures ParseInt("-" + d) == Some(-(DecimalValue(d) as int))
  {
    StripNegativeNumeral(d);
    ParseSignedNegative(d);
  }

  /** `int(str(n)) == n`. */
  lemma ParseIntRoundTrip(n: int)
    ensures ParseInt(IntToDecimal(n)) == Some(n)
  {
    if n < 0 {
      ParseIntRoundTripNegative(n);
    } else {
      ParseIntRoundTripNatural(n);
    }
  }

  lemma ParseIntRoundTripNatural(n: nat)
    ensures ParseInt(IntToDecimal(n)) == Some(n)
  {
    var d := NatToDecimal(n);
    DecimalRoundTrip(n);
    ParseUnsigned(d);
  }

  lemma ParseIntRoundTripNegative(n: int)
    requires n < 0
    ensures ParseInt(IntToDecimal(n)) == Some(n)
  {
    var d := NatToDecimal(-n);
    DecimalRoundTrip(-n);
    var value := DecimalValue(d) as int;
    assert value == -n;
    ParseNegative(d);
    assert IntToDecimal(n) == "-" + d;
  }
}
